=== FILE: README.md ===
# Annjs network store, modelled in Dafny

A model of the network-topology store of Annjs (`src/store/index.js`), a
Vuex store that holds a small feed-forward neural network. The store's state
has three parts: an ordered list of input nodes, an ordered list of layers
(each a weight matrix and a bias column), and an ordered list of output
nodes. From that state the store derives:

- a node list, with each hidden unit named `innerL{layer}R{row}`;
- an edge list that numbers every weighted connection;
- the layer sizes and layer ids;
- the forward pass `sigmoid(weight . a + bias)`, folded over the layers.

Its mutations add an input node, add a hidden unit, and write values to the
input and output nodes. The `run` action chains these into one evaluation.

The model is functional. The network is an immutable `Network` value. Each
getter is a function. A getter that can throw (`edges`, `layerSize`,
`compute`) returns a `Result`, with an `Error` constructor per JavaScript
`Error` the store throws. A property access on `undefined` is
modelled as `TypeError`. `addNode` can throw after it has already written.
Its result is therefore a `Commit`, which carries the network left behind
whether the call completes or throws.

`inputs` and `outputs` are methods with loops, matched against reference
definitions. The sigmoid is a parameter `act: real -> real`, so only the
shape and the NaN behaviour of the forward pass are stated.

Modules, one per file:

- `Base` (base.dfy): `Option`, `Result`, errors, and numbers with NaN.
- `Matrices` (matrices.dfy): the shape behaviour of the matrix library.
- `State` (state.dfy): the state, the starting network, and the invariant `Consistent`.
- `Lodash` (lodash.dfy): `_.find`, `_.filter` and `_.range`.
- `Decimal` (decimal.dfy): the decimal spelling of numbers in ids.
- `NodeList` (nodes.dfy): `nodes` and `getNode`.
- `EdgeList` (edges.dfy): `edges`.
- `Queries` (queries.dfy): `layerSize`, `layersIds` and `innerLayersId`.
- `Forward` (forward.dfy): `inputVector` and `compute`.
- `Mutations` (mutations.dfy): `addInuptNode` and `addNode`.
- `Values` (values.dfy): `inputs` and `outputs`.
- `Actions` (actions.dfy): `run`.
- `Findings` (findings.dfy): where `addNode` falls short, and the corrected version.

`addInuptNode` makes all of its checks (lines 93-99) before it writes, so a
refused call changes nothing. `addNode` writes the new unit at lines
120-125 and only then checks the outgoing weights at lines 126-129. A call
it refuses there leaves the unit in place. The model follows the code; see
Findings.

## Model

| member | source | states |
|---|---|---|
| State.InitialConsistent | src/store/index.js:10-26 | The starting state is consistent: its two layers have 2 and 3 units, every layer's weight is as wide as the layer before it, and each unit has a one-entry bias row. Every output has a last-layer unit on its row. |
| State.InitialDistinct | src/store/index.js:11-14 | The two starting input nodes have different ids. |
| Matrices.AppendColumn | src/store/index.js:100-104 | Pushing `weights[r]` onto row `r` of a matrix keeps the row count. Each row gains exactly that entry, and a rectangular matrix stays rectangular, one column wider. |
| Matrices.Step | src/store/index.js:37 | One layer step succeeds exactly when the weight's width equals the column's height and the bias is a one-column matrix as tall as the weight. The result has one entry per weight row. |
| Matrices.StepFinite | src/store/index.js:37 | A step over a rectangular weight and a true bias column, applied to a column without NaN, succeeds and yields no NaN. |
| Lodash.FindIndexSpec | src/store/index.js:43 | `_.find` with a property matcher returns nothing exactly when no element matches. Otherwise it returns the first match. |
| Lodash.FindConcat | src/store/index.js:68 | A lookup in a concatenated list finds the first list's match when there is one, and otherwise the second list's. |
| Lodash.FindIndexAgree | src/store/index.js:140 | A lookup depends only on the properties its matcher tests, so lists that agree on them give the same position. |
| Lodash.FilterConcat | src/store/index.js:83 | `_.filter` distributes over concatenation and keeps the original order. |
| Lodash.Range | src/store/index.js:62 | `_.range(a, b)` counts up from `a` to just below `b` when `a <= b`, and counts down from `a` to just above `b` otherwise. |
| Decimal.NatStrInjective | src/store/index.js:70 | Different layer or row numbers are spelt differently in decimal. |
| NodeList.InnerIdInjective | src/store/index.js:70 | Two hidden units get the same id `innerL{li}R{ri}` only if they have the same layer and the same row. |
| NodeList.NodesLayout | src/store/index.js:67-73 | The node list is every input, then every output, then the hidden units layer by layer. Unit `ri` of layer `li` sits after the units of the earlier layers, with id `innerL{li}R{ri}`, row `ri` and layer `li`. The length is the inputs plus the outputs plus the bias rows of all layers. |
| NodeList.FilterLayer | src/store/index.js:67-73 | Filtering the node list by layer `x` gives the inputs for -1, the units of a hidden layer, the outputs for the layer after the last, and nothing otherwise. |
| NodeList.FindAtHidden | src/store/index.js:82 | Looking up layer `li` and row `ri` finds unit `ri` of layer `li`. |
| NodeList.Nodes | src/store/index.js:67-73 | The `nodes` getter. Every input node appears as stored at the front, and every output node follows as stored; the hidden units come after them (see `NodesLayout`). |
| NodeList.GetNode | src/store/index.js:41-45 | `getNode` returns nothing exactly when no node has the id. Otherwise it returns the first node of the list with that id, so an input or output that shares an id with a later node shadows it. |
| NodeList.GetNodeHidden | src/store/index.js:41-45 | Looking up a hidden unit's id finds that unit, unless an input or output node already has the id. |
| EdgeList.Edges | src/store/index.js:74-89 | The `edges` getter. The only thing it throws is a property access on `undefined`, and when it succeeds it lists at least one edge per output node. |
| EdgeList.UnitEdgesSpec | src/store/index.js:81-86 | The edges into one unit are built exactly when every weight they read exists. Edge `j` then runs from source `j` into the unit, has id `next + j`, and carries the weight at the unit's row and the source's row. |
| EdgeList.OutEdgesSpec | src/store/index.js:76-79 | The output edges are built exactly when every output finds a last-layer unit on its row. Edge `k` then runs from that unit to output `k`, with no id and the label "1". |
| EdgeList.EdgesThrowUnlessDefined | src/store/index.js:74-89 | `edges` throws exactly when an output has no unit to come from, or when a weight it reads is missing. |
| EdgeList.EdgesNumbered | src/store/index.js:75-88 | When `edges` succeeds, the weighted edges carry ids 0, 1, 2, ... in order. The output edges come last, with no id and the label "1". |
| EdgeList.EdgesMatchReference | src/store/index.js:74-89 | On a consistent network, `edges` lists exactly the reference enumeration, which is written without lookups: each lookup by layer and row lands on the intended unit. |
| EdgeList.EdgesEnumerate | src/store/index.js:74-89 | On a consistent network, `edges` lists the following. For each layer, each unit and each source in order, the edge from the source into the unit, whose position is also its id and which carries the weight between them. After those, one edge per output from the last layer's unit on the same row. |
| EdgeList.EdgeCount | src/store/index.js:74-89 | On a consistent network, `edges` lists `inputs * units(0) + units(0) * units(1) + ... + outputs` edges. |
| EdgeList.InSizeUnits | src/store/index.js:83-85 | On a consistent network, the weights of layer `li` are as wide as layer `li - 1` has units, so every unit reads one weight per source node of the layer before. |
| EdgeList.InnerEdgeTotalTerm | src/store/index.js:80-87 | Each term of the count: layer 0 adds inputs times its units, and every later layer adds the units of the layer before it times its own units. |
| EdgeList.InitialEdgeCount | src/store/index.js:10-26 | The starting network has 13 edges. |
| Queries.LayerSize | src/store/index.js:46-59 | `layerSize` throws exactly for ids below -1 or above the number of layers. It gives the input count for -1 and the output count for the id after the last layer. |
| Queries.LayerSizeCountsNodes | src/store/index.js:46-73 | `layerSize` of every valid id equals the number of nodes that the node list puts in that layer. |
| Queries.LayersIds | src/store/index.js:61-63 | The `layersIds` getter: L + 1 ids, where id `k` is `k - 1`. |
| Queries.LayersIdsExact | src/store/index.js:61-63 | An id is in `layersIds` exactly when it lies in -1 .. L-1, so the output layer is left out. `layerSize` is defined on each of its ids. |
| Queries.InnerLayersId | src/store/index.js:64-66 | The `innerLayersId` getter: with L >= 1 layers, L - 1 ids where id `k` is `k`; with none, [0]. |
| Queries.InnerLayersIdExact | src/store/index.js:64-66 | With at least one layer, an id is in `innerLayersId` exactly when it names a layer other than the last. |
| Forward.InputVector | src/store/index.js:29-33 | The input column has one entry per input node in input order, each node's value when it has one. It is free of NaN exactly when every input holds a number. |
| Forward.Compute | src/store/index.js:34-40 | The `compute` getter, the fold of layer steps from the input column. The only thing it throws is a size mismatch from `dot` or `plus`. |
| Forward.ComputeConcat | src/store/index.js:34-40 | Folding over `xs + ys` is folding over `xs` and then feeding the result to `ys`. The first failure is the one reported. |
| Forward.ComputeShape | src/store/index.js:34-40 | A successful forward pass yields one entry per row of the last layer's weight. |
| Forward.ComputeDefined | src/store/index.js:34-40 | On a consistent network, the pass succeeds exactly when the column is as tall as the input layer. A column of any other height throws a size mismatch. A successful pass has one entry per unit of the last layer and keeps a NaN-free column free of NaN. |
| Forward.ComputeTwo | src/store/index.js:36-38 | A two-layer fold is the second step applied to the first step's result. |
| Forward.InitialHidden | src/store/index.js:15-18 | The starting hidden layer maps inputs `x` and `y` to act(x + 2y + 2) and act(2x + y + 0.5). |
| Forward.InitialOutput | src/store/index.js:18-21 | The starting second layer maps `x` and `y` to act(0.2x + y + 2), act(x + y + 1) and act(2x + 3y + 1). |
| Forward.InitialForward | src/store/index.js:10-40 | On the starting network, `compute` on inputs `p` and `q` yields the three outputs of the second layer, applied to the first layer's activations. |
| Mutations.AddInputNode | src/store/index.js:92-107 | `addInuptNode` checks in this order: an id already taken, a missing first layer, then a weight count other than the first layer's rows. Each input is tied to the error that the first failing check raises, and the call succeeds exactly when all three pass. On success, only two things change. The new input node is appended with the next row in layer -1, and each row of the first layer gets its weight appended. |
| Mutations.AddInputNodeSpec | src/store/index.js:92-107 | Adding an input keeps a consistent network consistent. The input layer grows by one, and every layer keeps its unit count. |
| Mutations.AddInputNodeEdges | src/store/index.js:92-107 | After an input is added, `edges` lists an edge from it into each unit `ri` of the first layer, weighted `weights[ri]`. |
| Mutations.AddInputNodeDistinct | src/store/index.js:93-104 | Because `addInuptNode` refuses an id an input already has, a completed call keeps the input ids distinct. |
| Mutations.AddNode | src/store/index.js:108-137 | `addNode` runs its checks in source order, and each input is tied to the error of the first check it fails. An outgoing weight for the last layer, a layer id out of range, and incoming weights that do not match the layer's width are refused with the network unchanged. Past those checks the unit is appended. A missing outgoing list then throws `TypeError` with the unit left appended, and a non-empty list whose length differs from the next layer's units throws `OutputWeightLength` with the unit left appended. Otherwise the next layer gains a column of the outgoing weights, or stays as it is when the list is empty. No other layer or node changes. |
| Mutations.AddNodeConsistent | src/store/index.js:120-136 | A completed `addNode` keeps a consistent network consistent when the unit goes into the last layer or comes with outgoing weights. The layer gains exactly one unit. |
| Mutations.AddNodeDistinct | src/store/index.js:108-137 | `addNode` leaves the input nodes as they were, whether it completes or throws, so their ids stay distinct. |
| Mutations.AddNodeEdges | src/store/index.js:120-136 | After such an `addNode`, `edges` lists the new unit's incoming edges weighted by `inputWeight`. Its outgoing edges into the next layer are weighted by `outputWeight`. |
| Values.Inputs | src/store/index.js:138-146 | The loop writing the values key by key, in any order, ends with the reference input list. |
| Values.InputsRefSpec | src/store/index.js:138-146 | `inputs` changes nothing but values, and a node whose id is not a key keeps its value. The node a key's lookup finds holds that key's value. When ids are distinct, every node whose id is a key holds its value. |
| Values.InputsDistinct | src/store/index.js:138-146 | `inputs` writes values only, so input ids that were distinct before stay distinct. |
| Values.InputsFill | src/store/index.js:138-146 | Once every input of a list with distinct ids has been given a value, the input column has no NaN. |
| Values.Outputs | src/store/index.js:147-155 | The loop writing entry `i` to the first output in row `i` ends with the reference output list. |
| Values.OutputsPlaced | src/store/index.js:147-155 | When outputs are in row order, output `k` gets entry `k` of the column if the column has one, and otherwise keeps its value. Nothing but values changes. |
| Actions.Run | src/store/index.js:158-162 | `run` commits the inputs, computes from the input column, and commits the result to the outputs. When the computation throws, the committed inputs stay. |
| Actions.PreparedConsistent | src/store/index.js:159 | Committing input values keeps a network consistent. |
| Actions.RunSpec | src/store/index.js:158-162 | On a consistent network, `run` does not throw, and output `k` ends up with the activation of unit `k` of the last layer. When every input (with distinct ids) gets a value, every output holds a number. |
| Findings.AddNodeChecked | src/store/index.js:108-137 | The corrected `addNode` makes every check before writing. It treats a missing outgoing list as empty, and it requires one outgoing weight per next-layer unit for every layer but the last. It succeeds exactly under those conditions. |
| Findings.AddNodeCheckedAgrees | src/store/index.js:108-137 | On a consistent network, the corrected mutation accepts exactly the calls that `addNode` completes and that give a non-last layer its outgoing weights. It then yields the same network. |
| Findings.AddNodeCheckedConsistent | src/store/index.js:108-137 | The corrected mutation keeps a consistent network consistent. `edges` still succeeds afterwards, and the layer gains one unit. |
| Findings.AddNodePartialWrite | src/store/index.js:119-131 | With too few outgoing weights, `addNode` throws with the unit already appended, and leaves an inconsistent network. The corrected mutation refuses the call. |
| Findings.AddNodeMissingWeights | src/store/index.js:109-126 | With no outgoing list for a last-layer unit, `addNode` throws `TypeError` with the unit already appended. The corrected mutation accepts the call. |
| Findings.ShortRowBreaksEdges | src/store/index.js:81-86 | `edges` throws when a unit's weight row is shorter than the layer before it. |
| Findings.AddNodeEmptyWeights | src/store/index.js:125-136 | With an empty outgoing list for a non-last layer, `addNode` completes, but `edges` then throws. The corrected mutation refuses the call. |

## Left out

- Vue and Vuex plumbing is not modelled: reactivity, `Vue.set`, getter caching and the `commit` dispatch. Mutations are functions from network to network.
- The `info` display labels of nodes are not modelled, including the `toFixed(2)` text of output values. The `type` field is the `Kind` of a node.
- Edge labels carry the exact real weight instead of its two-decimal text from `toFixed(2)`. A missing weight still throws, as the call on `undefined` does.
- Arithmetic is on exact reals, not IEEE doubles. The sigmoid is the parameter `act`, so the forward pass is stated for every activation function and no numeric value of the sigmoid is claimed.
- The code of the `linear-algebra` library is not part of this model. Only the behaviour the store relies on is stated: `dot` and `plus` throw on mismatched shapes, `cols` reads the first row, and `undefined` entries become NaN. Building a `Matrix` from empty data is not modelled.
- The code of lodash is not part of this model. `_.find`, `_.filter` and `_.range` are stated for the matchers the store uses.
- Ids and layer ids are typed. Node ids are strings, and layer ids are integers. A fractional or non-numeric layer id, which JavaScript would turn into an `undefined` lookup, is not modelled. The `weights` of `addInuptNode` and the `inputWeight` of `addNode` are always lists; the `TypeError` that reading `.length` of an `undefined` list would throw (lines 97 and 117) is not modelled.
- Aliasing is not modelled. Weight rows are values here, and callers are assumed not to reuse or mutate the arrays they pass. In the source, `addNode` stores the caller's `inputWeight` array itself as the new row (line 121), and `addInuptNode` pushes onto the stored rows in place (lines 100-103). One array passed to two `addNode` calls therefore becomes a shared row, which a later `addInuptNode` extends twice.
- Values.Inputs: the argument is a map from ids to numbers, and `_.each` (line 139) walks its own keys as a map's. Lodash walks an object with a numeric `length` key as an array instead (an input node named `length` would do that); this walk is not modelled.
- The argument of `inputs` is a map from ids to numbers. The argument of `outputs` is the column of the forward pass, one entry per row: the `value[0]` read takes that entry.
- `src/router/index.js` is routing configuration with no logic, and is not part of this model.

## Findings

| source | as written | input that shows it | evidently intended | confidence | as-written member | corrected member |
|---|---|---|---|---|---|---|
| src/store/index.js:119-131 | The unit is appended before the outgoing weights are checked. A count that does not match the next layer throws, but the unit stays and the next layer is one column short. | `addNode` on layer 0 of the starting state, with inputWeight [1, 1], bias 0 and outputWeight [1] | Check everything before writing; a refused call changes nothing | high; not executed | Findings.AddNodePartialWrite | Findings.AddNodeChecked |
| src/store/index.js:109-126 | Line 109 tolerates a missing outputWeight. Line 126 then reads its length and throws `TypeError`, after the unit is appended. | `addNode` on layer 1 (the last) of the starting state, with inputWeight [1, 1], bias 0 and no outputWeight | A missing outgoing list means none | medium; not executed | Findings.AddNodeMissingWeights | Findings.AddNodeChecked |
| src/store/index.js:125-136 | An empty outputWeight for a layer that has a next one is accepted. The next layer then has no weight for the new unit, and the `edges` getter throws on the missing entry. | `addNode` on layer 0 of the starting state, with inputWeight [1, 1], bias 0 and outputWeight [] | Require one outgoing weight per unit of the next layer | high; not executed | Findings.AddNodeEmptyWeights | Findings.AddNodeChecked |

=== FILE: actions.dfy ===
/**
  The `run` action: commit the input values, compute the forward pass from
  the input column, commit the result to the output nodes.
 */
module Actions {
  import opened Base
  import opened State
  import opened Forward
  import opened Values

  /** The network `run` computes from once `inputs` has been committed. */
  function Prepared(n: Network, values: map<string, real>): Network {
    n.(input := InputsRef(n.input, values))
  }

  /**
    The `run` action. The input commit is not undone when the forward pass
    throws, so a failure carries the network with the new input values.
   */
  method Run(n: Network, values: map<string, real>, act: real -> real) returns (r: Commit)
    ensures var p := Prepared(n, values);
            var c := Compute(p.layers, InputVector(p), act);
            && (r.Threw? <==> c.Err?)
            && (r.Threw? ==> r == Threw(c.error, p))
            && (r.Done? ==> r.net == p.(output := OutputsRef(n.output, c.value)))
  {
    var p := Inputs(n, values);
    var c := Compute(p.layers, InputVector(p), act);
    if c.Err? {
      r := Threw(c.error, p);
    } else {
      var q := Outputs(p, c.value);
      r := Done(q);
    }
  }

  /** Committing input values keeps a network consistent: only values change. */
  lemma PreparedConsistent(n: Network, values: map<string, real>)
    requires Consistent(n)
    ensures Consistent(Prepared(n, values))
  {
    var p := Prepared(n, values);
    InputsRefSpec(n.input, values);
    forall k | 0 <= k < |p.input|
      ensures p.input[k].row == k && p.input[k].layer == -1 && p.input[k].kind == In
    {
      assert p.input[k].(value := n.input[k].value) == n.input[k];
    }
    forall i: nat | i < |p.layers|
      ensures LayerShaped(p, i)
    {
      assert LayerShaped(n, i);
      assert InSize(p, i) == InSize(n, i);
    }
  }

  /**
    On a consistent network `run` never throws: output `k` ends up holding
    the activation of unit `k` of the last layer, and when every input
    (with distinct ids) is given a value, every output holds a number.
   */
  lemma RunSpec(n: Network, values: map<string, real>, act: real -> real)
    requires Consistent(n)
    ensures var p := Prepared(n, values);
            var c := Compute(n.layers, InputVector(p), act);
            && c.Ok?
            && |n.output| <= |c.value| == Units(n, |n.layers| - 1)
            && (forall k :: 0 <= k < |n.output| ==> OutputsRef(n.output, c.value)[k].value == Some(c.value[k]))
            && (DistinctIds(n.input) && (forall k :: 0 <= k < |n.input| ==> n.input[k].id in values) ==>
                  forall k :: 0 <= k < |n.output| ==> c.value[k].Val?)
  {
    var p := Prepared(n, values);
    PreparedConsistent(n, values);
    assert LayerShaped(n, |n.layers| - 1);
    InputsRefSpec(n.input, values);
    ComputeDefined(p, InputVector(p), act);
    OutputsPlaced(n, Compute(n.layers, InputVector(p), act).value);
    if DistinctIds(n.input) && (forall k :: 0 <= k < |n.input| ==> n.input[k].id in values) {
      InputsFill(n, values);
    }
  }
}

=== FILE: base.dfy ===
/**
  Failure-carrying values shared by every part of the store model.

  The store signals failures by throwing JavaScript `Error`s whose messages
  name the violated condition; each message becomes one `Error` constructor.
  A property access on `undefined` (which JavaScript reports as a
  `TypeError`) is `TypeError`.
 */
module Base {

  datatype Option<+T> = None | Some(value: T)

  datatype Error =
    | IdTaken             // addInuptNode: 'Id is already taken.'
    | WeightsLength       // addInuptNode: weights do not match the first layer
    | OutputLayerWeight   // addNode: output weight given for the last layer
    | LayerOutOfRange     // addNode: 'Layers id is not in range.'
    | InputWeightLength   // addNode: input weight does not match the previous layer
    | OutputWeightLength  // addNode: output weight does not match the next layer
    | IdOutOfBounds       // layerSize: 'Id out of bounds'
    | SizeMismatch        // matrix library: operand shapes do not fit
    | TypeError           // property access on `undefined`

  /** The outcome of a getter: a value, or the error it throws. */
  datatype Result<+T> = Ok(value: T) | Err(error: Error) {
    predicate IsFailure() {
      Err?
    }

    function PropagateFailure<U>(): Result<U>
      requires Err?
    {
      Err(error)
    }

    function Extract(): T
      requires Ok?
    {
      value
    }
  }

  /**
    A number as the matrix arithmetic sees it. `undefined` entering an
    arithmetic operation yields NaN, and NaN absorbs every operation.
   */
  datatype Num = Val(x: real) | NaN

  function AddN(a: Num, b: Num): (r: Num)
    ensures r.Val? <==> a.Val? && b.Val?
  {
    if a.Val? && b.Val? then Val(a.x + b.x) else NaN
  }

  function MulN(a: Num, b: Num): (r: Num)
    ensures r.Val? <==> a.Val? && b.Val?
  {
    if a.Val? && b.Val? then Val(a.x * b.x) else NaN
  }
}

=== FILE: decimal.dfy ===
/**
  The decimal spelling JavaScript gives a non-negative integer when it is
  concatenated to a string, and the fact that the spelling is injective.
 */
module Decimal {

  predicate IsDigit(c: char) {
    '0' <= c <= '9'
  }

  function DigitChar(d: nat): (c: char)
    requires d < 10
    ensures IsDigit(c)
  {
    "0123456789"[d]
  }

  /** The digits of `n`, most significant first, with no leading zero. */
  function NatStr(n: nat): (s: string)
    ensures |s| >= 1
    ensures |s| == 1 <==> n < 10
    ensures forall i :: 0 <= i < |s| ==> IsDigit(s[i])
  {
    if n < 10 then [DigitChar(n)] else NatStr(n / 10) + [DigitChar(n % 10)]
  }

  lemma DigitCharInjective(a: nat, b: nat)
    requires a < 10 && b < 10
    requires DigitChar(a) == DigitChar(b)
    ensures a == b
  {
  }

  /** Different numbers are spelt differently. */
  lemma {:induction false} NatStrInjective(a: nat, b: nat)
    requires NatStr(a) == NatStr(b)
    ensures a == b
    decreases a
  {
    var s := NatStr(a);
    if a < 10 {
      DigitCharInjective(a, b);
    } else {
      assert s[|s| - 1] == DigitChar(a % 10) == DigitChar(b % 10);
      DigitCharInjective(a % 10, b % 10);
      assert NatStr(a / 10) == s[..|s| - 1] == NatStr(b / 10);
      NatStrInjective(a / 10, b / 10);
    }
  }

  /** The length of the run of digits that starts `s`. */
  function LeadingDigits(s: string): nat {
    if |s| > 0 && IsDigit(s[0]) then 1 + LeadingDigits(s[1..]) else 0
  }

  lemma {:induction false} LeadingDigitsBeforeMarker(x: string, c: char, y: string)
    requires !IsDigit(c)
    requires forall i :: 0 <= i < |x| ==> IsDigit(x[i])
    ensures LeadingDigits(x + [c] + y) == |x|
    decreases |x|
  {
    if |x| > 0 {
      assert (x + [c] + y)[1..] == x[1..] + [c] + y;
      LeadingDigitsBeforeMarker(x[1..], c, y);
    }
  }

  /**
    A digit string followed by a non-digit marker splits in only one way:
    if `x + [c] + y == u + [c] + v` with `x` and `u` all digits, then the
    pieces agree.
   */
  lemma SplitAtMarker(x: string, y: string, u: string, v: string, c: char)
    requires !IsDigit(c)
    requires forall i :: 0 <= i < |x| ==> IsDigit(x[i])
    requires forall i :: 0 <= i < |u| ==> IsDigit(u[i])
    requires x + [c] + y == u + [c] + v
    ensures x == u && y == v
  {
    var s := x + [c] + y;
    LeadingDigitsBeforeMarker(x, c, y);
    LeadingDigitsBeforeMarker(u, c, v);
    assert x == s[..|x|] == u;
    assert y == s[|x| + 1..] == v;
  }
}

=== FILE: edges.dfy ===
/**
  The `edges` getter: for every layer, every unit of it and every node of
  the layer before (the inputs for layer 0), one numbered edge from that
  node into the unit, labelled with the connecting weight; then one
  unnumbered edge per output node from the last layer's unit of the same
  row, labelled "1".
 */
module EdgeList {
  import opened Base
  import opened Matrices
  import opened State
  import opened Lodash
  import opened NodeList

  /** An edge label: a weight (shown with two decimals) or the fixed "1" of an output edge. */
  datatype Label = Weight(w: real) | One

  datatype Edge = Edge(source: string, target: string, id: Option<int>, name: Label)

  /** `weight.data[r][c]` exists; reading a missing one throws (indexing `undefined`, or `toFixed` on it). */
  predicate InRange(w: Matrix, r: int, c: int) {
    0 <= r < |w| && 0 <= c < |w[r]|
  }

  /** The edges into one unit can be built: there are no sources, or the unit exists and every weight it reads does. */
  predicate UnitOk(sources: seq<Node>, target: Option<Node>, w: Matrix) {
    |sources| == 0 ||
    (target.Some? && forall j :: 0 <= j < |sources| ==> InRange(w, target.value.row, sources[j].row))
  }

  /** The edges from every source node into `target`, numbered from `next` on. */
  function UnitEdges(sources: seq<Node>, target: Option<Node>, w: Matrix, next: int): (r: Result<seq<Edge>>)
    ensures r.Ok? ==> |r.value| == |sources|
    ensures r.Err? ==> r.error == TypeError
    decreases |sources|
  {
    if |sources| == 0 then Ok([])
    else if target.None? then Err(TypeError)
    else if !InRange(w, target.value.row, sources[0].row) then Err(TypeError)
    else
      var rest :- UnitEdges(sources[1..], target, w, next + 1);
      Ok([Edge(sources[0].id, target.value.id, Some(next), Weight(w[target.value.row][sources[0].row]))] + rest)
  }

  /**
    The edges into one unit are built exactly when `UnitOk` holds, and then
    edge `j` runs from source `j` into the unit, has id `next + j` and
    carries the weight from the unit's row at the source's row.
   */
  lemma {:induction false} UnitEdgesSpec(sources: seq<Node>, target: Option<Node>, w: Matrix, next: int)
    ensures var r := UnitEdges(sources, target, w, next);
            (r.Ok? <==> UnitOk(sources, target, w)) &&
            (r.Ok? ==> forall j :: 0 <= j < |sources| ==>
              target.Some? && InRange(w, target.value.row, sources[j].row) &&
              r.value[j] == Edge(sources[j].id, target.value.id, Some(next + j),
                                 Weight(w[target.value.row][sources[j].row])))
    decreases |sources|
  {
    if |sources| > 0 && target.Some? {
      UnitEdgesSpec(sources[1..], target, w, next + 1);
      assert forall j :: 1 <= j < |sources| ==> sources[1..][j - 1] == sources[j];
    }
  }

  /**
    The edges into units `ri`, `ri + 1`, ... of layer `li`, numbered from
    `next` on; `sources` are the nodes of the layer before, which the getter
    filters out of the node list afresh for every unit.
   */
  function UnitsEdges(nodes: seq<Node>, sources: seq<Node>, l: Layer, li: nat, ri: nat, next: int): Result<seq<Edge>>
    decreases |l.bias| - ri
  {
    if ri >= |l.bias| then Ok([])
    else
      var es :- UnitEdges(sources, Find(nodes, At(li, ri)), l.weight, next);
      var rest :- UnitsEdges(nodes, sources, l, li, ri + 1, next + |es|);
      Ok(es + rest)
  }

  /** The edges into every unit of layers `li`, `li + 1`, ..., numbered from `next` on. */
  function LayersEdges(nodes: seq<Node>, layers: seq<Layer>, li: nat, next: int): Result<seq<Edge>>
    decreases |layers| - li
  {
    if li >= |layers| then Ok([])
    else
      var es :- UnitsEdges(nodes, Filter(nodes, InLayer(li - 1)), layers[li], li, 0, next);
      var rest :- LayersEdges(nodes, layers, li + 1, next + |es|);
      Ok(es + rest)
  }

  /** One edge per output node, from the unit of layer `last` on the same row. */
  function OutEdges(nodes: seq<Node>, outs: seq<Node>, last: int): (r: Result<seq<Edge>>)
    ensures r.Ok? ==> |r.value| == |outs|
    ensures r.Err? ==> r.error == TypeError
    decreases |outs|
  {
    if |outs| == 0 then Ok([])
    else
      var inner := Find(nodes, At(last, outs[0].row));
      if inner.None? then Err(TypeError)
      else
        var rest :- OutEdges(nodes, outs[1..], last);
        Ok([Edge(inner.value.id, outs[0].id, None, One)] + rest)
  }

  /**
    The output edges are built exactly when every output node finds a unit
    of layer `last` on its row, and then edge `k` runs from that unit to
    output `k`, with no id and the label "1".
   */
  lemma {:induction false} OutEdgesSpec(nodes: seq<Node>, outs: seq<Node>, last: int)
    ensures var r := OutEdges(nodes, outs, last);
            (r.Ok? <==> forall k :: 0 <= k < |outs| ==> Find(nodes, At(last, outs[k].row)).Some?) &&
            (r.Ok? ==> forall k :: 0 <= k < |outs| ==>
              Find(nodes, At(last, outs[k].row)).Some? &&
              r.value[k] == Edge(Find(nodes, At(last, outs[k].row)).value.id, outs[k].id, None, One))
    decreases |outs|
  {
    if |outs| > 0 {
      OutEdgesSpec(nodes, outs[1..], last);
      assert forall k :: 1 <= k < |outs| ==> outs[1..][k - 1] == outs[k];
    }
  }

  /** The edges into units `ri`, ... of a layer fail only on a property access on `undefined`. */
  lemma {:induction false} UnitsEdgesThrow(nodes: seq<Node>, sources: seq<Node>, l: Layer, li: nat, ri: nat, next: int)
    ensures UnitsEdges(nodes, sources, l, li, ri, next).Err? ==> UnitsEdges(nodes, sources, l, li, ri, next).error == TypeError
    decreases |l.bias| - ri
  {
    if ri < |l.bias| {
      var es := UnitEdges(sources, Find(nodes, At(li, ri)), l.weight, next);
      if es.Ok? {
        UnitsEdgesThrow(nodes, sources, l, li, ri + 1, next + |es.value|);
      }
    }
  }

  /** The edges into layers `li`, ... fail only on a property access on `undefined`. */
  lemma {:induction false} LayersEdgesThrow(nodes: seq<Node>, layers: seq<Layer>, li: nat, next: int)
    ensures LayersEdges(nodes, layers, li, next).Err? ==> LayersEdges(nodes, layers, li, next).error == TypeError
    decreases |layers| - li
  {
    if li < |layers| {
      var sources := Filter(nodes, InLayer(li - 1));
      UnitsEdgesThrow(nodes, sources, layers[li], li, 0, next);
      var es := UnitsEdges(nodes, sources, layers[li], li, 0, next);
      if es.Ok? {
        LayersEdgesThrow(nodes, layers, li + 1, next + |es.value|);
      }
    }
  }

  /**
    The `edges` getter; the output edges are built first, so their failure
    is the one reported. It never throws anything but a property access on
    `undefined`, and it lists at least one edge per output node.
   */
  function Edges(n: Network): (r: Result<seq<Edge>>)
    ensures r.Err? ==> r.error == TypeError
    ensures r.Ok? ==> |n.output| <= |r.value|
  {
    var nodes := Nodes(n);
    LayersEdgesThrow(nodes, n.layers, 0, 0);
    var outs :- OutEdges(nodes, n.output, |n.layers| - 1);
    var inner :- LayersEdges(nodes, n.layers, 0, 0);
    Ok(inner + outs)
  }

  /** When the getter does not throw: every output has a unit to come from and every weight each unit reads exists. */
  predicate EdgesDefined(n: Network) {
    var nodes := Nodes(n);
    && (forall k :: 0 <= k < |n.output| ==> Find(nodes, At(|n.layers| - 1, n.output[k].row)).Some?)
    && LayersOk(nodes, n.layers, 0)
  }

  /** Every unit `ri`, `ri + 1`, ... of layer `li` can have its edges built. */
  predicate UnitsOk(nodes: seq<Node>, sources: seq<Node>, l: Layer, li: nat, ri: nat) {
    forall rj :: ri <= rj < |l.bias| ==> UnitOk(sources, Find(nodes, At(li, rj)), l.weight)
  }

  /** The edges into units `ri`, ... of layer `li` can be built exactly when each unit's can. */
  lemma {:induction false} UnitsEdgesOk(nodes: seq<Node>, sources: seq<Node>, l: Layer, li: nat, ri: nat, next: int)
    ensures UnitsEdges(nodes, sources, l, li, ri, next).Ok? <==> UnitsOk(nodes, sources, l, li, ri)
    decreases |l.bias| - ri
  {
    if ri < |l.bias| {
      var es := UnitEdges(sources, Find(nodes, At(li, ri)), l.weight, next);
      UnitEdgesSpec(sources, Find(nodes, At(li, ri)), l.weight, next);
      if es.Ok? {
        UnitsEdgesOk(nodes, sources, l, li, ri + 1, next + |es.value|);
      }
    }
  }

  /** Every unit of layer `li` can have its edges built from the nodes of the layer before. */
  predicate LayerOk(nodes: seq<Node>, layers: seq<Layer>, li: nat)
    requires li < |layers|
  {
    UnitsOk(nodes, Filter(nodes, InLayer(li - 1)), layers[li], li, 0)
  }

  /** Every unit of layers `li`, `li + 1`, ... can have its edges built. */
  predicate LayersOk(nodes: seq<Node>, layers: seq<Layer>, li: nat) {
    forall lj: nat :: li <= lj < |layers| ==> LayerOk(nodes, layers, lj)
  }

  /** The edges into layers `li`, ... are built when layer `li`'s are and then the rest's are. */
  lemma LayersEdgesOkStep(nodes: seq<Node>, layers: seq<Layer>, li: nat, next: int)
    requires li < |layers|
    ensures var es := UnitsEdges(nodes, Filter(nodes, InLayer(li - 1)), layers[li], li, 0, next);
            LayersEdges(nodes, layers, li, next).Ok? <==>
              es.Ok? && LayersEdges(nodes, layers, li + 1, next + |es.value|).Ok?
  {
  }

  /** The edges into layers `li`, ... can be built exactly when each unit's can. */
  lemma {:induction false} LayersEdgesOk(nodes: seq<Node>, layers: seq<Layer>, li: nat, next: int)
    ensures LayersEdges(nodes, layers, li, next).Ok? <==> LayersOk(nodes, layers, li)
    decreases |layers| - li
  {
    if li < |layers| {
      var sources := Filter(nodes, InLayer(li - 1));
      UnitsEdgesOk(nodes, sources, layers[li], li, 0, next);
      LayersEdgesOkStep(nodes, layers, li, next);
      assert LayersOk(nodes, layers, li) <==> LayerOk(nodes, layers, li) && LayersOk(nodes, layers, li + 1);
      var es := UnitsEdges(nodes, sources, layers[li], li, 0, next);
      if es.Ok? {
        LayersEdgesOk(nodes, layers, li + 1, next + |es.value|);
      }
    }
  }

  /** The `edges` getter throws exactly when an output has no unit to come from or a weight it reads is missing. */
  lemma EdgesThrowUnlessDefined(n: Network)
    ensures Edges(n).Ok? <==> EdgesDefined(n)
  {
    OutEdgesSpec(Nodes(n), n.output, |n.layers| - 1);
    LayersEdgesOk(Nodes(n), n.layers, 0, 0);
  }

  /** Edge `k` of `es` carries the id `next + k`. */
  predicate NumberedFrom(es: seq<Edge>, next: int) {
    forall k :: 0 <= k < |es| ==> es[k].id == Some(next + k)
  }

  lemma NumberedConcat(a: seq<Edge>, b: seq<Edge>, next: int)
    requires NumberedFrom(a, next) && NumberedFrom(b, next + |a|)
    ensures NumberedFrom(a + b, next)
  {
    assert forall k :: 0 <= k < |b| ==> (a + b)[|a| + k] == b[k];
  }

  /** A successful run of `UnitsEdges` is the first unit's edges followed by the rest. */
  lemma UnitsEdgesUnfold(nodes: seq<Node>, sources: seq<Node>, l: Layer, li: nat, ri: nat, next: int)
    requires ri < |l.bias| && UnitsEdges(nodes, sources, l, li, ri, next).Ok?
    ensures var es := UnitEdges(sources, Find(nodes, At(li, ri)), l.weight, next);
            es.Ok? &&
            UnitsEdges(nodes, sources, l, li, ri + 1, next + |es.value|).Ok? &&
            UnitsEdges(nodes, sources, l, li, ri, next).value ==
              es.value + UnitsEdges(nodes, sources, l, li, ri + 1, next + |es.value|).value
  {
  }

  lemma {:induction false} UnitsEdgesIds(nodes: seq<Node>, sources: seq<Node>, l: Layer, li: nat, ri: nat, next: int)
    requires UnitsEdges(nodes, sources, l, li, ri, next).Ok?
    ensures NumberedFrom(UnitsEdges(nodes, sources, l, li, ri, next).value, next)
    decreases |l.bias| - ri
  {
    if ri < |l.bias| {
      var target := Find(nodes, At(li, ri));
      UnitsEdgesUnfold(nodes, sources, l, li, ri, next);
      var es := UnitEdges(sources, target, l.weight, next).value;
      UnitEdgesSpec(sources, target, l.weight, next);
      assert NumberedFrom(es, next);
      UnitsEdgesIds(nodes, sources, l, li, ri + 1, next + |es|);
      NumberedConcat(es, UnitsEdges(nodes, sources, l, li, ri + 1, next + |es|).value, next);
    }
  }

  /** A successful run of `LayersEdges` is the first layer's edges followed by the rest. */
  lemma LayersEdgesUnfold(nodes: seq<Node>, layers: seq<Layer>, li: nat, next: int)
    requires li < |layers| && LayersEdges(nodes, layers, li, next).Ok?
    ensures var es := UnitsEdges(nodes, Filter(nodes, InLayer(li - 1)), layers[li], li, 0, next);
            es.Ok? &&
            LayersEdges(nodes, layers, li + 1, next + |es.value|).Ok? &&
            LayersEdges(nodes, layers, li, next).value ==
              es.value + LayersEdges(nodes, layers, li + 1, next + |es.value|).value
  {
  }

  lemma {:induction false} LayersEdgesIds(nodes: seq<Node>, layers: seq<Layer>, li: nat, next: int)
    requires LayersEdges(nodes, layers, li, next).Ok?
    ensures NumberedFrom(LayersEdges(nodes, layers, li, next).value, next)
    decreases |layers| - li
  {
    if li < |layers| {
      var sources := Filter(nodes, InLayer(li - 1));
      LayersEdgesUnfold(nodes, layers, li, next);
      var es := UnitsEdges(nodes, sources, layers[li], li, 0, next).value;
      UnitsEdgesIds(nodes, sources, layers[li], li, 0, next);
      LayersEdgesIds(nodes, layers, li + 1, next + |es|);
      NumberedConcat(es, LayersEdges(nodes, layers, li + 1, next + |es|).value, next);
    }
  }

  /** Whenever the getter succeeds, the numbered edges carry the ids 0, 1, 2, ... in order and the output edges none. */
  lemma EdgesNumbered(n: Network)
    requires Edges(n).Ok?
    ensures var es := Edges(n).value;
            var count := |es| - |n.output|;
            count >= 0 &&
            (forall k :: 0 <= k < count ==> es[k].id == Some(k)) &&
            (forall k :: count <= k < |es| ==> es[k].id.None? && es[k].name == One)
  {
    var nodes := Nodes(n);
    var outs := OutEdges(nodes, n.output, |n.layers| - 1).value;
    var inner := LayersEdges(nodes, n.layers, 0, 0).value;
    LayersEdgesIds(nodes, n.layers, 0, 0);
    OutEdgesUnnumbered(nodes, n.output, |n.layers| - 1);
    assert Edges(n).value == inner + outs;
    assert forall k :: 0 <= k < |outs| ==> (inner + outs)[|inner| + k] == outs[k];
  }

  /** The output edges carry no id and the label "1". */
  lemma {:induction false} OutEdgesUnnumbered(nodes: seq<Node>, outs: seq<Node>, last: int)
    requires OutEdges(nodes, outs, last).Ok?
    ensures var es := OutEdges(nodes, outs, last).value;
            |es| == |outs| && forall k :: 0 <= k < |es| ==> es[k].id.None? && es[k].name == One
    decreases |outs|
  {
    if |outs| > 0 {
      OutEdgesUnnumbered(nodes, outs[1..], last);
    }
  }

  // ---------------------------------------------------------------------
  // The enumeration in a consistent network, through a reference
  // definition that lists the same edges without any lookups.

  /** `a * b`, written as `b` added `a` times so that positions stay in linear arithmetic. */
  function Times(a: nat, b: nat): nat {
    if a == 0 then 0 else b + Times(a - 1, b)
  }

  lemma {:induction false} TimesIsProduct(a: nat, b: nat)
    ensures Times(a, b) == a * b
  {
    if a > 0 {
      TimesIsProduct(a - 1, b);
    }
  }

  /** The numbered edges from the sources `ids` into one unit whose weight row is `row`. */
  function UnitRef(ids: seq<string>, target: string, row: seq<real>, next: int): seq<Edge>
    requires |ids| <= |row|
  {
    seq(|ids|, p requires 0 <= p < |ids| => Edge(ids[p], target, Some(next + p), Weight(row[p])))
  }

  /**
    What the enumeration needs of one layer: the ids of its sources in row
    order, the ids of its units in row order, and its weights.
   */
  datatype Block = Block(ids: seq<string>, tids: seq<string>, w: Matrix)

  /** `w` has a row for every unit, each with an entry for every source. */
  predicate Fits(b: Block) {
    |b.tids| <= |b.w| && forall r :: 0 <= r < |b.tids| ==> |b.ids| <= |b.w[r]|
  }

  predicate AllFit(bs: seq<Block>) {
    forall j :: 0 <= j < |bs| ==> Fits(bs[j])
  }

  /** The numbered edges into units `ri`, ... of a block, numbered from `next` on. */
  function UnitsRef(b: Block, ri: nat, next: int): seq<Edge>
    requires Fits(b)
    decreases |b.tids| - ri
  {
    if ri >= |b.tids| then []
    else UnitRef(b.ids, b.tids[ri], b.w[ri], next) + UnitsRef(b, ri + 1, next + |b.ids|)
  }

  /** The number of numbered edges into a block: its units times its sources. */
  function BlockSize(b: Block): nat {
    Times(|b.tids|, |b.ids|)
  }

  /** The numbered edges into blocks `i`, `i + 1`, ..., numbered from `next` on. */
  function BlocksRef(bs: seq<Block>, i: nat, next: int): seq<Edge>
    requires AllFit(bs)
    decreases |bs| - i
  {
    if i >= |bs| then []
    else UnitsRef(bs[i], 0, next) + BlocksRef(bs, i + 1, next + BlockSize(bs[i]))
  }

  /** The number of numbered edges into blocks `a` up to, not including, `b`. */
  function Offset(bs: seq<Block>, a: nat, b: nat): nat
    requires b <= |bs|
    decreases b - a
  {
    if a >= b then 0 else BlockSize(bs[a]) + Offset(bs, a + 1, b)
  }

  /** The ids of the nodes feeding layer `li`: the inputs for layer 0, else the units of the layer before. */
  function SourceIds(n: Network, li: nat): seq<string>
    requires li < |n.layers|
  {
    seq(InSize(n, li), p requires 0 <= p < InSize(n, li) =>
          if li == 0 then n.input[p].id else InnerId(li - 1, p))
  }

  /** The ids of the units of layer `li`. */
  function TargetIds(n: Network, li: nat): seq<string>
    requires li < |n.layers|
  {
    seq(Units(n, li), r requires 0 <= r < Units(n, li) => InnerId(li, r))
  }

  function Blocks(n: Network): seq<Block> {
    seq(|n.layers|, li requires 0 <= li < |n.layers| =>
          Block(SourceIds(n, li), TargetIds(n, li), n.layers[li].weight))
  }

  /** The output edges: output `k` is fed by unit `k` of the last layer. */
  function OutRef(n: Network): seq<Edge>
    requires |n.layers| >= 1
  {
    seq(|n.output|, k requires 0 <= k < |n.output| =>
          Edge(InnerId(|n.layers| - 1, k), n.output[k].id, None, One))
  }

  lemma BlocksFit(n: Network)
    requires Consistent(n)
    ensures AllFit(Blocks(n))
  {
    forall li | 0 <= li < |n.layers|
      ensures Fits(Blocks(n)[li])
    {
      assert LayerShaped(n, li);
    }
  }

  /** What the `edges` getter lists for a consistent network, written without lookups. */
  function ReferenceEdges(n: Network): seq<Edge>
    requires Consistent(n)
  {
    BlocksFit(n);
    BlocksRef(Blocks(n), 0, 0) + OutRef(n)
  }

  // Agreement of the getter with the reference.

  /** `sources` lists rows 0, 1, ... in order, under the ids `ids`. */
  predicate InRowOrder(sources: seq<Node>, ids: seq<string>) {
    |sources| == |ids| &&
    forall p :: 0 <= p < |sources| ==> sources[p].row == p && sources[p].id == ids[p]
  }

  /** Looking up layer `li`, row `ri` finds a node on that row with the id `tid`. */
  predicate FoundAt(nodes: seq<Node>, li: nat, ri: nat, tid: string) {
    var f := Find(nodes, At(li, ri));
    f.Some? && f.value.row == ri && f.value.id == tid
  }

  /** Sources in row order with the given ids, and a target whose weight row is wide enough, give the reference edges. */
  lemma UnitEdgesAsRef(sources: seq<Node>, ids: seq<string>, t: Node, w: Matrix, next: int)
    requires InRowOrder(sources, ids)
    requires 0 <= t.row < |w| && |ids| <= |w[t.row]|
    ensures UnitEdges(sources, Some(t), w, next) == Ok(UnitRef(ids, t.id, w[t.row], next))
  {
    UnitEdgesSpec(sources, Some(t), w, next);
    assert UnitOk(sources, Some(t), w);
    var r := UnitEdges(sources, Some(t), w, next).value;
    var ref := UnitRef(ids, t.id, w[t.row], next);
    assert |r| == |ref|;
    forall p | 0 <= p < |r|
      ensures r[p] == ref[p]
    {
    }
    assert r == ref;
  }

  /**
    The edges into units `ri`, ... of a layer are the reference ones when
    the layer before is listed in row order under the block's source ids
    and each unit is found by its layer and row under the block's unit id.
   */
  lemma {:induction false} UnitsEdgesResolve(nodes: seq<Node>, sources: seq<Node>, l: Layer, li: nat,
                                             b: Block, ri: nat, next: int)
    requires InRowOrder(sources, b.ids) && b.w == l.weight
    requires |b.tids| == |l.bias| && Fits(b)
    requires forall rj :: 0 <= rj < |b.tids| ==> FoundAt(nodes, li, rj, b.tids[rj])
    requires ri <= |b.tids|
    ensures UnitsEdges(nodes, sources, l, li, ri, next) == Ok(UnitsRef(b, ri, next))
    decreases |b.tids| - ri
  {
    if ri < |b.tids| {
      var target := Find(nodes, At(li, ri));
      assert FoundAt(nodes, li, ri, b.tids[ri]);
      var es := UnitRef(b.ids, b.tids[ri], l.weight[ri], next);
      UnitEdgesAsRef(sources, b.ids, target.value, l.weight, next);
      assert UnitEdges(sources, target, l.weight, next) == Ok(es);
      UnitsEdgesResolve(nodes, sources, l, li, b, ri + 1, next + |b.ids|);
    }
  }

  /** In a consistent network `_.filter(nodes, {layer: li - 1})` gives the sources of layer `li` in row order. */
  lemma SourcesOf(n: Network, li: nat)
    requires Consistent(n) && li < |n.layers|
    ensures InRowOrder(Filter(Nodes(n), InLayer(li - 1)), SourceIds(n, li))
  {
    FilterLayer(n, li - 1);
    if li > 0 {
      assert LayerShaped(n, li - 1);
    }
  }

  /** In a consistent network the edges into layer `li` are the reference ones for its block. */
  lemma UnitsEdgesAsRef(n: Network, li: nat, next: int)
    requires Consistent(n) && li < |n.layers|
    ensures Fits(Blocks(n)[li])
    ensures UnitsEdges(Nodes(n), Filter(Nodes(n), InLayer(li - 1)), n.layers[li], li, 0, next)
            == Ok(UnitsRef(Blocks(n)[li], 0, next))
  {
    var b := Blocks(n)[li];
    assert LayerShaped(n, li);
    SourcesOf(n, li);
    forall rj | 0 <= rj < |b.tids|
      ensures FoundAt(Nodes(n), li, rj, b.tids[rj])
    {
      FindAtHidden(n, li, rj);
    }
    UnitsEdgesResolve(Nodes(n), Filter(Nodes(n), InLayer(li - 1)), n.layers[li], li, b, 0, next);
  }

  /** `LayersEdges` succeeds with the first layer's edges followed by the rest when both succeed. */
  lemma LayersEdgesStep(nodes: seq<Node>, layers: seq<Layer>, li: nat, next: int, es: seq<Edge>, m: int, rest: seq<Edge>)
    requires li < |layers|
    requires UnitsEdges(nodes, Filter(nodes, InLayer(li - 1)), layers[li], li, 0, next) == Ok(es)
    requires m == next + |es| && LayersEdges(nodes, layers, li + 1, m) == Ok(rest)
    ensures LayersEdges(nodes, layers, li, next) == Ok(es + rest)
  {
  }

  /** Each layer's edges are its block's reference edges, wherever their numbering starts. */
  ghost predicate Resolves(nodes: seq<Node>, layers: seq<Layer>, bs: seq<Block>) {
    && |bs| == |layers| && AllFit(bs)
    && forall lj, nx :: 0 <= lj < |layers| ==>
         UnitsEdges(nodes, Filter(nodes, InLayer(lj - 1)), layers[lj], lj, 0, nx) == Ok(UnitsRef(bs[lj], 0, nx))
  }

  /** The edges into layers `li`, ... are the reference ones when each layer's are. */
  lemma {:induction false} LayersEdgesResolve(nodes: seq<Node>, layers: seq<Layer>, bs: seq<Block>, li: nat, next: int)
    requires Resolves(nodes, layers, bs) && li <= |layers|
    ensures AllFit(bs)
    ensures LayersEdges(nodes, layers, li, next) == Ok(BlocksRef(bs, li, next))
    decreases |layers| - li
  {
    if li < |layers| {
      var es := UnitsRef(bs[li], 0, next);
      UnitsRefLength(bs[li], 0, next);
      var m := next + BlockSize(bs[li]);
      LayersEdgesResolve(nodes, layers, bs, li + 1, m);
      LayersEdgesStep(nodes, layers, li, next, es, m, BlocksRef(bs, li + 1, m));
    }
  }

  /** In a consistent network every output finds the last layer's unit of its row. */
  lemma OutEdgesAsRef(n: Network)
    requires Consistent(n)
    ensures OutEdges(Nodes(n), n.output, |n.layers| - 1) == Ok(OutRef(n))
  {
    var nodes := Nodes(n);
    var last := |n.layers| - 1;
    assert LayerShaped(n, last);
    forall k | 0 <= k < |n.output|
      ensures Find(nodes, At(last, n.output[k].row)) == Some(HiddenNode(n.layers[last], last, k))
    {
      FindAtHidden(n, last, k);
    }
    OutEdgesSpec(nodes, n.output, last);
    var r := OutEdges(nodes, n.output, last).value;
    assert |r| == |OutRef(n)|;
    forall k | 0 <= k < |r|
      ensures r[k] == OutRef(n)[k]
    {
    }
    assert r == OutRef(n);
  }

  /**
    On a consistent network the `edges` getter does not throw and lists
    exactly the reference edges: the lookups by layer and row all land on
    the intended hidden units.
   */
  lemma EdgesMatchReference(n: Network)
    requires Consistent(n)
    ensures Edges(n) == Ok(ReferenceEdges(n))
  {
    var nodes := Nodes(n);
    BlocksFit(n);
    forall lj, nx | 0 <= lj < |n.layers|
      ensures UnitsEdges(nodes, Filter(nodes, InLayer(lj - 1)), n.layers[lj], lj, 0, nx)
              == Ok(UnitsRef(Blocks(n)[lj], 0, nx))
    {
      UnitsEdgesAsRef(n, lj, nx);
    }
    assert Resolves(nodes, n.layers, Blocks(n));
    LayersEdgesResolve(nodes, n.layers, Blocks(n), 0, 0);
    OutEdgesAsRef(n);
  }

  // Positions in the reference enumeration.

  lemma UnitsRefUnfold(b: Block, ri: nat, next: int)
    requires Fits(b) && ri < |b.tids|
    ensures UnitsRef(b, ri, next) == UnitRef(b.ids, b.tids[ri], b.w[ri], next) + UnitsRef(b, ri + 1, next + |b.ids|)
  {
  }

  lemma {:induction false} UnitsRefLength(b: Block, ri: nat, next: int)
    requires Fits(b) && ri <= |b.tids|
    ensures |UnitsRef(b, ri, next)| == Times(|b.tids| - ri, |b.ids|)
    decreases |b.tids| - ri
  {
    if ri < |b.tids| {
      UnitsRefUnfold(b, ri, next);
      UnitsRefLength(b, ri + 1, next + |b.ids|);
    }
  }

  /** Unit `rj`'s edge from source `p` sits at position `(rj - ri) * |ids| + p` among the units from `ri` on. */
  lemma {:induction false} UnitsRefAt(b: Block, ri: nat, next: int, rj: nat, p: nat)
    requires Fits(b) && ri <= rj < |b.tids| && p < |b.ids|
    ensures var k := Times(rj - ri, |b.ids|) + p;
            k < |UnitsRef(b, ri, next)| &&
            UnitsRef(b, ri, next)[k] == Edge(b.ids[p], b.tids[rj], Some(next + k), Weight(b.w[rj][p]))
    decreases rj - ri
  {
    var s := |b.ids|;
    var head := UnitRef(b.ids, b.tids[ri], b.w[ri], next);
    var rest := UnitsRef(b, ri + 1, next + s);
    UnitsRefUnfold(b, ri, next);
    if rj == ri {
      assert (head + rest)[p] == head[p];
    } else {
      UnitsRefAt(b, ri + 1, next + s, rj, p);
      var k := Times(rj - ri - 1, s) + p;
      assert (head + rest)[s + k] == rest[k];
    }
  }

  lemma BlocksRefUnfold(bs: seq<Block>, i: nat, next: int)
    requires AllFit(bs) && i < |bs|
    ensures BlocksRef(bs, i, next) == UnitsRef(bs[i], 0, next) + BlocksRef(bs, i + 1, next + BlockSize(bs[i]))
  {
  }

  lemma {:induction false} BlocksRefLength(bs: seq<Block>, i: nat, next: int)
    requires AllFit(bs) && i <= |bs|
    ensures |BlocksRef(bs, i, next)| == Offset(bs, i, |bs|)
    decreases |bs| - i
  {
    if i < |bs| {
      BlocksRefUnfold(bs, i, next);
      UnitsRefLength(bs[i], 0, next);
      BlocksRefLength(bs, i + 1, next + BlockSize(bs[i]));
    }
  }

  /** A block's edges open the reference list from that block on. */
  lemma BlocksRefHere(bs: seq<Block>, i: nat, next: int, r: nat, p: nat)
    requires AllFit(bs) && i < |bs| && r < |bs[i].tids| && p < |bs[i].ids|
    ensures var k := Times(r, |bs[i].ids|) + p;
            k < |BlocksRef(bs, i, next)| &&
            BlocksRef(bs, i, next)[k] == Edge(bs[i].ids[p], bs[i].tids[r], Some(next + k), Weight(bs[i].w[r][p]))
  {
    var head := UnitsRef(bs[i], 0, next);
    var rest := BlocksRef(bs, i + 1, next + BlockSize(bs[i]));
    BlocksRefUnfold(bs, i, next);
    UnitsRefAt(bs[i], 0, next, r, p);
    var k := Times(r, |bs[i].ids|) + p;
    assert (head + rest)[k] == head[k];
  }

  /**
    In the reference list from block `i` on, the edge from source `p` into
    unit `r` of block `j` sits after the blocks before `j`, at row-major
    position `r * |sources| + p` within its block, and carries that
    position, counted from `next`, as its id.
   */
  lemma {:induction false} BlocksRefAt(bs: seq<Block>, i: nat, next: int, j: nat, r: nat, p: nat)
    requires AllFit(bs) && i <= j < |bs| && r < |bs[j].tids| && p < |bs[j].ids|
    ensures var k := Offset(bs, i, j) + Times(r, |bs[j].ids|) + p;
            k < |BlocksRef(bs, i, next)| &&
            BlocksRef(bs, i, next)[k] == Edge(bs[j].ids[p], bs[j].tids[r], Some(next + k), Weight(bs[j].w[r][p]))
    decreases j - i
  {
    if j == i {
      BlocksRefHere(bs, i, next, r, p);
    } else {
      var head := UnitsRef(bs[i], 0, next);
      var m := next + BlockSize(bs[i]);
      var rest := BlocksRef(bs, i + 1, m);
      BlocksRefUnfold(bs, i, next);
      UnitsRefLength(bs[i], 0, next);
      BlocksRefAt(bs, i + 1, m, j, r, p);
      var k := Offset(bs, i + 1, j) + Times(r, |bs[j].ids|) + p;
      assert (head + rest)[|head| + k] == rest[k];
    }
  }

  /** The position, and id, of the edge from source `p` into unit `ri` of layer `li`. */
  function EdgeIndex(n: Network, li: nat, ri: nat, p: nat): nat
    requires li < |n.layers|
  {
    Offset(Blocks(n), 0, li) + Times(ri, InSize(n, li)) + p
  }

  /** The edge from source `p` into unit `ri` of layer `li`, with the weight between them. */
  function InterEdge(n: Network, li: nat, ri: nat, p: nat): Edge
    requires Consistent(n)
    requires li < |n.layers| && ri < Units(n, li) && p < InSize(n, li)
  {
    var source := if li == 0 then n.input[p].id else InnerId(li - 1, p);
    assert LayerShaped(n, li);
    Edge(source, InnerId(li, ri), Some(EdgeIndex(n, li, ri, p)), Weight(n.layers[li].weight[ri][p]))
  }

  /** The number of numbered edges into all layers. */
  function NumberedCount(n: Network): nat {
    Offset(Blocks(n), 0, |n.layers|)
  }

  lemma InterEdgeInReference(n: Network, li: nat, ri: nat, p: nat)
    requires Consistent(n)
    requires li < |n.layers| && ri < Units(n, li) && p < InSize(n, li)
    ensures AllFit(Blocks(n)) && |BlocksRef(Blocks(n), 0, 0)| == NumberedCount(n)
    ensures EdgeIndex(n, li, ri, p) < NumberedCount(n)
    ensures BlocksRef(Blocks(n), 0, 0)[EdgeIndex(n, li, ri, p)] == InterEdge(n, li, ri, p)
  {
    var bs := Blocks(n);
    BlocksFit(n);
    BlocksRefLength(bs, 0, 0);
    BlocksRefAt(bs, 0, 0, li, ri, p);
    assert bs[li].ids[p] == if li == 0 then n.input[p].id else InnerId(li - 1, p);
  }

  /**
    The `edges` getter on a consistent network succeeds and enumerates, in
    order: for each layer, each unit and each source, the edge from the
    source into the unit at position `EdgeIndex` (which is also its id),
    carrying the weight between them; then, after all of them, one edge per
    output node from the last layer's unit of the same row, labelled "1".
   */
  lemma EdgesEnumerate(n: Network)
    requires Consistent(n)
    ensures Edges(n).Ok?
    ensures var es := Edges(n).value;
            var count := NumberedCount(n);
            && |es| == count + |n.output|
            && (forall li: nat, ri: nat, p: nat :: li < |n.layers| && ri < Units(n, li) && p < InSize(n, li) ==>
                  EdgeIndex(n, li, ri, p) < count && es[EdgeIndex(n, li, ri, p)] == InterEdge(n, li, ri, p))
            && (forall k :: 0 <= k < |n.output| ==>
                  es[count + k] == Edge(InnerId(|n.layers| - 1, k), n.output[k].id, None, One))
  {
    EdgesMatchReference(n);
    BlocksFit(n);
    var inner := BlocksRef(Blocks(n), 0, 0);
    var outs := OutRef(n);
    var count := NumberedCount(n);
    BlocksRefLength(Blocks(n), 0, 0);
    forall li: nat, ri: nat, p: nat | li < |n.layers| && ri < Units(n, li) && p < InSize(n, li)
      ensures EdgeIndex(n, li, ri, p) < count && (inner + outs)[EdgeIndex(n, li, ri, p)] == InterEdge(n, li, ri, p)
    {
      InterEdgeInReference(n, li, ri, p);
    }
    forall k | 0 <= k < |n.output|
      ensures (inner + outs)[count + k] == Edge(InnerId(|n.layers| - 1, k), n.output[k].id, None, One)
    {
      assert (inner + outs)[count + k] == outs[k];
    }
  }

  /** Layer `li` contributes units(li) * inputs(li) numbered edges. */
  lemma BlockCount(n: Network, li: nat)
    requires li < |n.layers|
    ensures Offset(Blocks(n), li, li + 1) == Units(n, li) * InSize(n, li)
  {
    TimesIsProduct(Units(n, li), InSize(n, li));
  }

  /** The number of numbered edges into layers `li`, `li + 1`, ...: units times sources, layer by layer. */
  function InnerEdgeTotal(n: Network, li: nat): nat
    requires li <= |n.layers|
    decreases |n.layers| - li
  {
    if li == |n.layers| then 0 else Units(n, li) * InSize(n, li) + InnerEdgeTotal(n, li + 1)
  }

  lemma {:induction false} OffsetTotal(n: Network, li: nat)
    requires li <= |n.layers|
    ensures Offset(Blocks(n), li, |n.layers|) == InnerEdgeTotal(n, li)
    decreases |n.layers| - li
  {
    if li < |n.layers| {
      BlockCount(n, li);
      OffsetTotal(n, li + 1);
    }
  }

  /**
    The `edges` getter on a consistent network lists
    |inputs| * units(0) + units(0) * units(1) + ... + |outputs| edges.
   */
  lemma EdgeCount(n: Network)
    requires Consistent(n)
    ensures Edges(n).Ok?
    ensures |Edges(n).value| == InnerEdgeTotal(n, 0) + |n.output|
  {
    EdgesMatchReference(n);
    BlocksFit(n);
    BlocksRefLength(Blocks(n), 0, 0);
    OffsetTotal(n, 0);
  }

  /** On a consistent network a layer reads one activation per unit of the layer before it. */
  lemma InSizeUnits(n: Network, li: nat)
    requires Consistent(n) && 1 <= li < |n.layers|
    ensures InSize(n, li) == Units(n, li - 1)
  {
    assert LayerShaped(n, li - 1);
  }

  /**
    Every term of the count: layer `li` adds the size of the layer before it
    (the inputs for layer 0) times its own units.
   */
  lemma InnerEdgeTotalTerm(n: Network, li: nat)
    requires Consistent(n) && li < |n.layers|
    ensures InnerEdgeTotal(n, li) ==
              (if li == 0 then |n.input| else Units(n, li - 1)) * Units(n, li) + InnerEdgeTotal(n, li + 1)
  {
    if li > 0 {
      InSizeUnits(n, li);
    }
  }

  /** The starting network has 2 * 2 + 2 * 3 numbered edges and 3 output edges. */
  lemma InitialEdgeCount()
    ensures Edges(Initial).Ok? && |Edges(Initial).value| == 13
  {
    InitialConsistent();
    EdgeCount(Initial);
    InnerEdgeTotalTerm(Initial, 0);
    InnerEdgeTotalTerm(Initial, 1);
    assert InnerEdgeTotal(Initial, 2) == 0;
  }
}

=== FILE: findings.dfy ===
/**
  Where `addNode` does not do what its own checks evidently aim at, and the
  definition it evidently intends.

  As written, `addNode` appends the new unit before it looks at the
  outgoing weights, so a missing list (which its first check tolerates) and
  a list of the wrong length throw with the unit already in place; and it
  accepts an empty list for a layer that has a next one, leaving that next
  layer one column short, so that the `edges` getter throws afterwards.
 */
module Findings {
  import opened Base
  import opened Matrices
  import opened State
  import opened Lodash
  import opened NodeList
  import opened EdgeList
  import opened Mutations

  /** The outgoing weights given, a missing list read as none. */
  function Given(outputWeight: Option<seq<real>>): seq<real> {
    if outputWeight.Some? then outputWeight.value else []
  }

  /**
    `addNode` as its checks intend: every check before any write, no
    outgoing weights for the last layer, and one outgoing weight per unit
    of the next layer for every other layer.
   */
  function AddNodeChecked(n: Network, layerId: int, inputWeight: seq<real>, bias: real, outputWeight: Option<seq<real>>): (r: Result<Network>)
    ensures r.Ok? <==>
              && 0 <= layerId < |n.layers|
              && |inputWeight| == Cols(n.layers[layerId].weight)
              && |Given(outputWeight)| == (if layerId == |n.layers| - 1 then 0 else Rows(n.layers[layerId + 1].weight))
  {
    var out := Given(outputWeight);
    if |out| > 0 && layerId == |n.layers| - 1 then Err(OutputLayerWeight)
    else if layerId < 0 || layerId >= |n.layers| then Err(LayerOutOfRange)
    else
      var l := n.layers[layerId];
      if |inputWeight| != Cols(l.weight) then Err(InputWeightLength)
      else if layerId == |n.layers| - 1 then Ok(n.(layers := n.layers[layerId := WithUnit(l, inputWeight, bias)]))
      else
        var next := n.layers[layerId + 1];
        if |out| != Rows(next.weight) then Err(OutputWeightLength)
        else Ok(n.(layers := n.layers[layerId := WithUnit(l, inputWeight, bias)]
                                     [layerId + 1 := next.(weight := AppendColumn(next.weight, out))]))
  }

  /**
    On a consistent network the checked mutation accepts exactly the calls
    that `addNode` completes and that give a layer with a next one its
    outgoing weights, and then it yields the same network.
   */
  lemma AddNodeCheckedAgrees(n: Network, layerId: int, inputWeight: seq<real>, bias: real, outputWeight: seq<real>)
    requires Consistent(n)
    ensures var r := AddNodeChecked(n, layerId, inputWeight, bias, Some(outputWeight));
            var c := AddNode(n, layerId, inputWeight, bias, Some(outputWeight));
            && (r.Ok? <==> c.Done? && (layerId == |n.layers| - 1 || |outputWeight| > 0))
            && (r.Ok? ==> c.net == r.value)
  {
    if 0 <= layerId < |n.layers| - 1 {
      assert LayerShaped(n, layerId + 1);
    }
  }

  /**
    The checked mutation keeps a consistent network consistent, so the
    `edges` getter still succeeds on the result, and the layer gains
    exactly one unit.
   */
  lemma AddNodeCheckedConsistent(n: Network, layerId: int, inputWeight: seq<real>, bias: real, outputWeight: Option<seq<real>>)
    requires Consistent(n)
    requires AddNodeChecked(n, layerId, inputWeight, bias, outputWeight).Ok?
    ensures var m := AddNodeChecked(n, layerId, inputWeight, bias, outputWeight).value;
            && Consistent(m)
            && Edges(m).Ok?
            && Units(m, layerId) == Units(n, layerId) + 1
  {
    var out := Given(outputWeight);
    AddNodeCheckedAgrees(n, layerId, inputWeight, bias, out);
    AddNodeConsistent(n, layerId, inputWeight, bias, Some(out));
    EdgesEnumerate(AddNodeChecked(n, layerId, inputWeight, bias, outputWeight).value);
  }

  /** The unit added to the starting network's first layer in the examples below. */
  function Grown(): Network {
    Initial.(layers := Initial.layers[0 := WithUnit(Initial.layers[0], [1.0, 1.0], 0.0)])
  }

  /**
    As written: one outgoing weight for a next layer of three units throws,
    but the unit has already been appended, and the network left behind is
    no longer consistent. The checked mutation refuses the call.
   */
  lemma AddNodePartialWrite()
    ensures AddNode(Initial, 0, [1.0, 1.0], 0.0, Some([1.0])) == Threw(OutputWeightLength, Grown())
    ensures Grown() != Initial && !Consistent(Grown())
    ensures AddNodeChecked(Initial, 0, [1.0, 1.0], 0.0, Some([1.0])) == Err(OutputWeightLength)
  {
    var m := Grown();
    assert Units(m, 0) == 3 != Units(Initial, 0);
    assert InSize(m, 1) == 3 && |m.layers[1].weight[0]| == 2;
    assert !LayerShaped(m, 1);
  }

  /**
    As written: leaving out the outgoing weights of a last-layer unit,
    which the first check tolerates, throws once the unit has been
    appended. The checked mutation accepts the call.
   */
  lemma AddNodeMissingWeights()
    ensures AddNode(Initial, 1, [1.0, 1.0], 0.0, None) ==
              Threw(TypeError, Initial.(layers := Initial.layers[1 := WithUnit(Initial.layers[1], [1.0, 1.0], 0.0)]))
    ensures AddNodeChecked(Initial, 1, [1.0, 1.0], 0.0, None).Ok?
  {
  }

  /**
    The `edges` getter throws when some unit's weight row is shorter than
    the layer before it: the unit reads a weight for every source.
   */
  lemma ShortRowBreaksEdges(n: Network, li: nat, ri: nat)
    requires NodesPlaced(n)
    requires 1 <= li < |n.layers| && ri < Units(n, li) && ri < |n.layers[li].weight|
    requires |n.layers[li].weight[ri]| < Units(n, li - 1)
    ensures Edges(n).Err?
  {
    var nodes := Nodes(n);
    var w := n.layers[li].weight;
    FilterLayer(n, li - 1);
    FindAtHidden(n, li, ri);
    var sources := Filter(nodes, InLayer(li - 1));
    var p := |w[ri]|;
    assert sources[p].row == p;
    assert !InRange(w, ri, p);
    assert !UnitOk(sources, Find(nodes, At(li, ri)), w);
    assert !UnitsOk(nodes, sources, n.layers[li], li, 0);
    assert !LayerOk(nodes, n.layers, li);
    assert !EdgesDefined(n);
    EdgesThrowUnlessDefined(n);
  }

  /**
    As written: an empty outgoing-weight list for a layer that has a next
    one completes, but the next layer's unit 0 now reads a weight for the
    third unit that its row does not have, so the `edges` getter throws.
    The checked mutation refuses the call.
   */
  lemma AddNodeEmptyWeights()
    ensures AddNode(Initial, 0, [1.0, 1.0], 0.0, Some([])) == Done(Grown())
    ensures Edges(Grown()).Err?
    ensures AddNodeChecked(Initial, 0, [1.0, 1.0], 0.0, Some([])) == Err(OutputWeightLength)
  {
    var m := Grown();
    assert NodesPlaced(m);
    assert Units(m, 0) == 3 && |m.layers[1].weight[0]| == 2;
    ShortRowBreaksEdges(m, 1, 0);
  }
}

=== FILE: forward.dfy ===
/**
  The `inputVector` and `compute` getters: the column of input values and
  the forward pass `a := sigmoid(weight . a + bias)` folded over the layers
  from first to last.
 */
module Forward {
  import opened Base
  import opened Matrices
  import opened State

  /** The number a node contributes to arithmetic: its value, NaN while unset. */
  function ValueOf(x: Node): Num {
    if x.value.Some? then x.value.value else NaN
  }

  /**
    The `inputVector` getter: one entry per input node, in input order. It
    has no NaN exactly when every input node holds a number.
   */
  function InputVector(n: Network): (v: Column)
    ensures |v| == |n.input|
    ensures forall k :: 0 <= k < |n.input| && n.input[k].value.Some? ==> v[k] == n.input[k].value.value
    ensures Finite(v) <==> forall k :: 0 <= k < |n.input| ==> n.input[k].value.Some? && n.input[k].value.value.Val?
  {
    var v := seq(|n.input|, k requires 0 <= k < |n.input| => ValueOf(n.input[k]));
    assert forall k :: 0 <= k < |v| ==> v[k] == ValueOf(n.input[k]);
    v
  }

  /**
    The `compute` getter: the step of each layer in turn, starting from `a`;
    the first failing step throws, and the only thing it can throw is a size
    mismatch.
   */
  function Compute(layers: seq<Layer>, a: Column, act: real -> real): (r: Result<Column>)
    ensures r.Err? ==> r.error == SizeMismatch
    decreases |layers|
  {
    if |layers| == 0 then Ok(a)
    else
      var b :- Step(layers[0].weight, layers[0].bias, a, act);
      Compute(layers[1..], b, act)
  }

  /** Running `xs + ys` is running `xs` and feeding its result to `ys`. */
  lemma {:induction false} ComputeConcat(xs: seq<Layer>, ys: seq<Layer>, a: Column, act: real -> real)
    ensures Compute(xs + ys, a, act) ==
              match Compute(xs, a, act)
              case Err(e) => Err(e)
              case Ok(b) => Compute(ys, b, act)
    decreases |xs|
  {
    if |xs| == 0 {
      assert xs + ys == ys;
    } else {
      assert (xs + ys)[0] == xs[0];
      assert (xs + ys)[1..] == xs[1..] + ys;
      var s := Step(xs[0].weight, xs[0].bias, a, act);
      if s.Ok? {
        ComputeConcat(xs[1..], ys, s.value, act);
      }
    }
  }

  /** A successful pass over at least one layer yields one entry per unit of the last layer. */
  lemma {:induction false} ComputeShape(layers: seq<Layer>, a: Column, act: real -> real)
    requires |layers| >= 1
    requires Compute(layers, a, act).Ok?
    ensures |Compute(layers, a, act).value| == |layers[|layers| - 1].weight|
    decreases |layers|
  {
    var b := Step(layers[0].weight, layers[0].bias, a, act).value;
    if |layers| > 1 {
      ComputeShape(layers[1..], b, act);
    }
  }

  /**
    From layer `i` of a consistent network on, a column as tall as layer
    `i` consumes passes through every remaining layer, and keeps a column
    without NaN free of NaN.
   */
  lemma {:induction false} ComputeFrom(n: Network, i: nat, a: Column, act: real -> real)
    requires Consistent(n)
    requires i < |n.layers| && |a| == InSize(n, i)
    ensures Compute(n.layers[i..], a, act).Ok?
    ensures |Compute(n.layers[i..], a, act).value| == Units(n, |n.layers| - 1)
    ensures Finite(a) ==> Finite(Compute(n.layers[i..], a, act).value)
    decreases |n.layers| - i
  {
    var l := n.layers[i];
    assert LayerShaped(n, i);
    assert Cols(l.weight) == |a| by {
      assert |l.weight[0]| == InSize(n, i);
    }
    assert |l.bias[0]| == 1;
    var b := Step(l.weight, l.bias, a, act).value;
    if Finite(a) {
      StepFinite(l.weight, l.bias, a, act);
    }
    assert n.layers[i..][0] == l;
    assert n.layers[i..][1..] == n.layers[i + 1..];
    if i + 1 < |n.layers| {
      ComputeFrom(n, i + 1, b, act);
    } else {
      assert n.layers[i + 1..] == [];
    }
  }

  /**
    On a consistent network the pass succeeds exactly when the column is
    as tall as the input layer; it then yields one entry per unit of the
    last layer, and no NaN when the column has none. A column of any other
    height fails the first product.
   */
  lemma ComputeDefined(n: Network, a: Column, act: real -> real)
    requires Consistent(n)
    ensures Compute(n.layers, a, act).Ok? <==> |a| == |n.input|
    ensures |a| == |n.input| ==> |Compute(n.layers, a, act).value| == Units(n, |n.layers| - 1)
    ensures |a| == |n.input| && Finite(a) ==> Finite(Compute(n.layers, a, act).value)
    ensures |a| != |n.input| ==> Compute(n.layers, a, act) == Err(SizeMismatch)
  {
    assert n.layers[0..] == n.layers;
    assert LayerShaped(n, 0);
    assert |n.layers[0].weight[0]| == |n.input|;
    if |a| == |n.input| {
      ComputeFrom(n, 0, a, act);
    }
  }

  /** The starting hidden layer applied to inputs `x` and `y`. */
  lemma InitialHidden(act: real -> real, x: real, y: real)
    ensures Step([[1.0, 2.0], [2.0, 1.0]], [[2.0], [0.5]], [Val(x), Val(y)], act)
              == Ok([Val(act(x + 2.0 * y + 2.0)), Val(act(2.0 * x + y + 0.5))])
  {
    var w: Matrix := [[1.0, 2.0], [2.0, 1.0]];
    var b: Matrix := [[2.0], [0.5]];
    var a := [Val(x), Val(y)];
    assert DotRow(w[0], a, 2) == Val(0.0 + 1.0 * x + 2.0 * y);
    assert DotRow(w[1], a, 2) == Val(0.0 + 2.0 * x + 1.0 * y);
    var r := Step(w, b, a, act).value;
    assert r == [r[0], r[1]];
  }

  /** The starting output layer applied to hidden activations `x` and `y`. */
  lemma InitialOutput(act: real -> real, x: real, y: real)
    ensures Step([[0.2, 1.0], [1.0, 1.0], [2.0, 3.0]], [[2.0], [1.0], [1.0]], [Val(x), Val(y)], act)
              == Ok([Val(act(0.2 * x + y + 2.0)), Val(act(x + y + 1.0)), Val(act(2.0 * x + 3.0 * y + 1.0))])
  {
    var w: Matrix := [[0.2, 1.0], [1.0, 1.0], [2.0, 3.0]];
    var b: Matrix := [[2.0], [1.0], [1.0]];
    var a := [Val(x), Val(y)];
    assert DotRow(w[0], a, 2) == Val(0.0 + 0.2 * x + 1.0 * y);
    assert DotRow(w[1], a, 2) == Val(0.0 + 1.0 * x + 1.0 * y);
    assert DotRow(w[2], a, 2) == Val(0.0 + 2.0 * x + 3.0 * y);
    var r := Step(w, b, a, act).value;
    assert r == [r[0], r[1], r[2]];
  }

  /** Two passes of the fold: a two-layer pass is the second step applied to the first step's result. */
  lemma ComputeTwo(l0: Layer, l1: Layer, a: Column, h: Column, act: real -> real)
    requires Step(l0.weight, l0.bias, a, act) == Ok(h)
    ensures Compute([l0, l1], a, act) == Step(l1.weight, l1.bias, h, act)
  {
    assert [l0, l1][1..] == [l1];
    assert [l1][1..] == [];
    assert Compute([l0, l1], a, act) == Compute([l1], h, act);
    var s := Step(l1.weight, l1.bias, h, act);
    if s.Ok? {
      assert Compute([l1], h, act) == Compute([], s.value, act);
    }
  }

  /**
    The starting network on inputs `p` and `q`: the hidden units hold
    act(p + 2q + 2) and act(2p + q + 0.5), and each output is its unit's
    weighted sum of those plus bias, through `act`.
   */
  lemma InitialForward(act: real -> real, p: real, q: real)
    ensures var x := act(p + 2.0 * q + 2.0);
            var y := act(2.0 * p + q + 0.5);
            Compute(Initial.layers, [Val(p), Val(q)], act) ==
              Ok([Val(act(0.2 * x + y + 2.0)), Val(act(x + y + 1.0)), Val(act(2.0 * x + 3.0 * y + 1.0))])
  {
    var l0 := Layer([[1.0, 2.0], [2.0, 1.0]], [[2.0], [0.5]]);
    var l1 := Layer([[0.2, 1.0], [1.0, 1.0], [2.0, 3.0]], [[2.0], [1.0], [1.0]]);
    var a := [Val(p), Val(q)];
    var x := act(p + 2.0 * q + 2.0);
    var y := act(2.0 * p + q + 0.5);
    var h := [Val(x), Val(y)];
    InitialHidden(act, p, q);
    ComputeTwo(l0, l1, a, h, act);
    InitialOutput(act, x, y);
    calc {
      Compute(Initial.layers, a, act);
      { assert Initial.layers == [l0, l1]; }
      Compute([l0, l1], a, act);
      Step(l1.weight, l1.bias, h, act);
    }
  }
}

=== FILE: lodash.dfy ===
/**
  The lodash helpers the store relies on, stated for node lists: `_.find`
  and `_.filter` with a property matcher, and `_.range`. A matcher object
  such as `{layer: li, row: ri}` matches the nodes whose listed properties
  are all equal to the given ones.
 */
module Lodash {
  import opened Base
  import opened State

  datatype Matcher = HasId(id: string) | HasRow(row: int) | At(layer: int, row: int) | InLayer(layer: int)

  predicate Matches(x: Node, m: Matcher) {
    match m
    case HasId(id) => x.id == id
    case HasRow(row) => x.row == row
    case At(layer, row) => x.layer == layer && x.row == row
    case InLayer(layer) => x.layer == layer
  }

  /** The position of the first node the matcher matches; the search `_.find` performs. */
  function FindIndex(s: seq<Node>, m: Matcher): Option<nat> {
    if |s| == 0 then None
    else if Matches(s[0], m) then Some(0)
    else match FindIndex(s[1..], m)
      case None => None
      case Some(k) => Some(k + 1)
  }

  /** The search finds nothing exactly when nothing matches, and otherwise the first match. */
  lemma {:induction false} FindIndexSpec(s: seq<Node>, m: Matcher)
    ensures var r := FindIndex(s, m);
            && (r.None? <==> forall k :: 0 <= k < |s| ==> !Matches(s[k], m))
            && (r.Some? ==> r.value < |s| && Matches(s[r.value], m))
            && (r.Some? ==> forall j :: 0 <= j < r.value ==> !Matches(s[j], m))
    decreases |s|
  {
    if |s| > 0 && !Matches(s[0], m) {
      FindIndexSpec(s[1..], m);
      assert forall k :: 1 <= k < |s| ==> s[1..][k - 1] == s[k];
    }
  }

  /** `_.find`: the first node the matcher matches, `undefined` (None) when there is none. */
  function Find(s: seq<Node>, m: Matcher): Option<Node> {
    FindIndexSpec(s, m);
    match FindIndex(s, m)
    case None => None
    case Some(k) => Some(s[k])
  }

  /** `_.find` returns a node of the list that matches, and `undefined` only when none does. */
  lemma FindSpec(s: seq<Node>, m: Matcher)
    ensures Find(s, m).None? <==> forall k :: 0 <= k < |s| ==> !Matches(s[k], m)
    ensures Find(s, m).Some? ==> Find(s, m).value in s && Matches(Find(s, m).value, m)
  {
    FindIndexSpec(s, m);
  }

  /** The search only looks at what the matcher tests, so lists that agree on it give the same answer. */
  lemma {:induction false} FindIndexAgree(s: seq<Node>, t: seq<Node>, m: Matcher)
    requires |s| == |t|
    requires forall k :: 0 <= k < |s| ==> (Matches(s[k], m) <==> Matches(t[k], m))
    ensures FindIndex(s, m) == FindIndex(t, m)
    decreases |s|
  {
    if |s| > 0 {
      FindIndexAgree(s[1..], t[1..], m);
    }
  }

  /** `_.filter`: the matching nodes, in their original order. */
  function Filter(s: seq<Node>, m: Matcher): seq<Node> {
    if |s| == 0 then []
    else (if Matches(s[0], m) then [s[0]] else []) + Filter(s[1..], m)
  }

  /** The first match in `a + b` is the first in `a`, or else the first in `b` shifted past `a`. */
  lemma {:induction false} FindIndexConcat(a: seq<Node>, b: seq<Node>, m: Matcher)
    ensures FindIndex(a + b, m) ==
              if FindIndex(a, m).Some? then FindIndex(a, m)
              else if FindIndex(b, m).Some? then Some(|a| + FindIndex(b, m).value)
              else None
    decreases |a|
  {
    if |a| > 0 {
      assert (a + b)[0] == a[0];
      assert (a + b)[1..] == a[1..] + b;
      FindIndexConcat(a[1..], b, m);
    } else {
      assert a + b == b;
    }
  }

  /** Looking through `a + b` finds the first match in `a`, and otherwise the first in `b`. */
  lemma FindConcat(a: seq<Node>, b: seq<Node>, m: Matcher)
    ensures Find(a + b, m) == if Find(a, m).Some? then Find(a, m) else Find(b, m)
  {
    FindIndexConcat(a, b, m);
    FindIndexSpec(a, m);
    FindIndexSpec(b, m);
    FindIndexSpec(a + b, m);
    if FindIndex(a, m).None? && FindIndex(b, m).Some? {
      assert (a + b)[|a| + FindIndex(b, m).value] == b[FindIndex(b, m).value];
    }
  }

  lemma {:induction false} FilterConcat(a: seq<Node>, b: seq<Node>, m: Matcher)
    ensures Filter(a + b, m) == Filter(a, m) + Filter(b, m)
    decreases |a|
  {
    if |a| > 0 {
      assert (a + b)[0] == a[0];
      assert (a + b)[1..] == a[1..] + b;
      FilterConcat(a[1..], b, m);
    } else {
      assert a + b == b;
    }
  }

  /** Filtering keeps a list whose every node matches, and empties one where none does. */
  lemma {:induction false} FilterUniform(s: seq<Node>, m: Matcher)
    ensures (forall k :: 0 <= k < |s| ==> Matches(s[k], m)) ==> Filter(s, m) == s
    ensures (forall k :: 0 <= k < |s| ==> !Matches(s[k], m)) ==> Filter(s, m) == []
    decreases |s|
  {
    if |s| > 0 {
      FilterUniform(s[1..], m);
      if forall k :: 0 <= k < |s| ==> Matches(s[k], m) {
        assert forall k :: 0 <= k < |s[1..]| ==> Matches(s[1..][k], m);
        assert s == [s[0]] + s[1..];
      }
      if forall k :: 0 <= k < |s| ==> !Matches(s[k], m) {
        assert forall k :: 0 <= k < |s[1..]| ==> !Matches(s[1..][k], m);
      }
    }
  }

  /**
    `_.range(start, end)` with lodash's default step: 1 when `start < end`,
    -1 when `start > end`. The result never contains `end`.
   */
  function Range(start: int, end: int): (r: seq<int>)
    ensures start <= end ==> |r| == end - start && forall k :: 0 <= k < |r| ==> r[k] == start + k
    ensures start > end ==> |r| == start - end && forall k :: 0 <= k < |r| ==> r[k] == start - k
    decreases if start <= end then end - start else start - end
  {
    if start < end then [start] + Range(start + 1, end)
    else if start > end then [start] + Range(start - 1, end)
    else []
  }
}

=== FILE: matrices.dfy ===
/**
  The shape behaviour of the `linear-algebra` Matrix the store relies on.

  A matrix is its row-major data. Like the library, `Cols` reads the length
  of the first row, so a ragged matrix reports the width of its first row.
  Activation vectors are column matrices; a column is kept as the sequence of
  its single entries.
 */
module Matrices {
  import opened Base

  type Matrix = seq<seq<real>>
  type Column = seq<Num>

  function Rows(m: Matrix): nat {
    |m|
  }

  function Cols(m: Matrix): nat {
    if |m| == 0 then 0 else |m[0]|
  }

  /** Every row has exactly `cols` entries. */
  predicate Rectangular(m: Matrix, cols: nat) {
    forall r :: 0 <= r < |m| ==> |m[r]| == cols
  }

  /** Each row of `m` with the matching entry of `col` pushed onto its end. */
  function AppendColumn(m: Matrix, col: seq<real>): (r: Matrix)
    requires |col| == |m|
    ensures |r| == |m|
    ensures forall i :: 0 <= i < |m| ==> r[i] == m[i] + [col[i]]
    ensures forall cols: nat :: Rectangular(m, cols) ==> Rectangular(r, cols + 1)
  {
    seq(|m|, i requires 0 <= i < |m| => m[i] + [col[i]])
  }

  /** A matrix entry as arithmetic sees it: a missing entry is `undefined`, hence NaN. */
  function Entry(row: seq<real>, j: nat): (r: Num)
    ensures r.Val? <==> j < |row|
  {
    if j < |row| then Val(row[j]) else NaN
  }

  /** The sum of `row[j] * a[j]` over `j < k`, accumulated from the left as the library's `dot` does. */
  function DotRow(row: seq<real>, a: Column, k: nat): Num
    requires k <= |a|
    decreases k
  {
    if k == 0 then Val(0.0)
    else AddN(DotRow(row, a, k - 1), MulN(Entry(row, k - 1), a[k - 1]))
  }

  /** The element-wise sigmoid, with `act` standing for `1 / (1 + e^-x)`. */
  function Sigmoid(v: Num, act: real -> real): Num {
    if v.Val? then Val(act(v.x)) else NaN
  }

  /** No entry of the column is NaN. */
  predicate Finite(a: Column) {
    forall j :: 0 <= j < |a| ==> a[j].Val?
  }

  /**
    One forward step `sigmoid(weight . a + bias)`. The product fails when the
    weight's width differs from the column's height; the sum fails unless the
    bias is a column as tall as the weight.
   */
  function Step(weight: Matrix, bias: Matrix, a: Column, act: real -> real): (r: Result<Column>)
    ensures r.Ok? <==> Cols(weight) == |a| && Rows(bias) == Rows(weight) && Cols(bias) == 1
    ensures r.Ok? ==> |r.value| == Rows(weight)
  {
    if Cols(weight) != |a| then Err(SizeMismatch)
    else if Rows(weight) != Rows(bias) || Cols(bias) != 1 then Err(SizeMismatch)
    else Ok(seq(|weight|, i requires 0 <= i < |weight| =>
                  Sigmoid(AddN(DotRow(weight[i], a, |a|), Entry(bias[i], 0)), act)))
  }

  /** A product over entries that all exist and are numbers is a number. */
  lemma {:induction false} DotRowFinite(row: seq<real>, a: Column, k: nat)
    requires k <= |a| && k <= |row|
    requires Finite(a)
    ensures DotRow(row, a, k).Val?
    decreases k
  {
    if k > 0 {
      DotRowFinite(row, a, k - 1);
    }
  }

  /**
    A step over a rectangular weight and a true bias column, applied to a
    column without NaN, yields a column without NaN.
   */
  lemma StepFinite(weight: Matrix, bias: Matrix, a: Column, act: real -> real)
    requires |weight| >= 1 && Rectangular(weight, |a|)
    requires |bias| == |weight| && Rectangular(bias, 1)
    requires Finite(a)
    ensures Step(weight, bias, a, act).Ok?
    ensures Finite(Step(weight, bias, a, act).value)
  {
    var r := Step(weight, bias, a, act).value;
    forall i | 0 <= i < |r|
      ensures r[i].Val?
    {
      DotRowFinite(weight[i], a, |a|);
    }
  }
}

=== FILE: mutations.dfy ===
/**
  The topology mutations: `addInuptNode` adds an input with one weight per
  unit of the first layer, `addNode` adds a unit to a layer with its
  incoming weights, its bias and, for a layer that is not the last, one
  outgoing weight per unit of the next layer.
 */
module Mutations {
  import opened Base
  import opened Matrices
  import opened State
  import opened Lodash
  import opened NodeList
  import opened EdgeList
  import opened Queries

  /**
    The `addInuptNode` mutation. It refuses an id some input already has,
    reads the first layer (a property access on `undefined` when there is
    none) and refuses a weight list that is not one entry per unit. It
    checks everything before it writes, so a refusal changes nothing.
   */
  function AddInputNode(n: Network, weights: seq<real>, id: string): (r: Result<Network>)
    ensures r.Ok? <==> Find(n.input, HasId(id)).None? && |n.layers| >= 1 && |weights| == Rows(n.layers[0].weight)
    ensures Find(n.input, HasId(id)).Some? ==> r == Err(IdTaken)
    ensures Find(n.input, HasId(id)).None? && |n.layers| == 0 ==> r == Err(TypeError)
    ensures Find(n.input, HasId(id)).None? && |n.layers| >= 1 && |weights| != Rows(n.layers[0].weight) ==> r == Err(WeightsLength)
    ensures r.Ok? ==>
              && r.value.input == n.input + [InputNode(id, |n.input|)]
              && r.value.output == n.output
              && |r.value.layers| == |n.layers|
              && r.value.layers[0].bias == n.layers[0].bias
              && |r.value.layers[0].weight| == |n.layers[0].weight|
              && (forall i :: 0 <= i < |weights| ==> r.value.layers[0].weight[i] == n.layers[0].weight[i] + [weights[i]])
              && (forall li :: 1 <= li < |n.layers| ==> r.value.layers[li] == n.layers[li])
  {
    if Find(n.input, HasId(id)).Some? then Err(IdTaken)
    else if |n.layers| == 0 then Err(TypeError)
    else
      var w := n.layers[0].weight;
      if |weights| != Rows(w) then Err(WeightsLength)
      else Ok(n.(input := n.input + [InputNode(id, |n.input|)],
                 layers := n.layers[0 := n.layers[0].(weight := AppendColumn(w, weights))]))
  }

  /**
    Adding an input keeps a consistent network consistent, makes the input
    layer one node larger and leaves every layer's unit count alone.
   */
  lemma AddInputNodeSpec(n: Network, weights: seq<real>, id: string)
    requires Consistent(n)
    requires AddInputNode(n, weights, id).Ok?
    ensures var m := AddInputNode(n, weights, id).value;
            && Consistent(m)
            && LayerSize(m, -1) == Ok(|n.input| + 1)
            && (forall li: nat :: li < |n.layers| ==> Units(m, li) == Units(n, li))
  {
    AddInputNodeConsistent(n, weights, id);
  }

  /** The new input feeds unit `ri` of the first layer through an edge weighted `weights[ri]`. */
  lemma AddInputNodeEdges(n: Network, weights: seq<real>, id: string)
    requires Consistent(n)
    requires AddInputNode(n, weights, id).Ok?
    ensures var m := AddInputNode(n, weights, id).value;
            && Edges(m).Ok?
            && (forall ri: nat :: ri < |weights| ==>
                  EdgeIndex(m, 0, ri, |n.input|) < |Edges(m).value| &&
                  Edges(m).value[EdgeIndex(m, 0, ri, |n.input|)] ==
                    Edge(id, InnerId(0, ri), Some(EdgeIndex(m, 0, ri, |n.input|)), Weight(weights[ri])))
  {
    var m := AddInputNode(n, weights, id).value;
    AddInputNodeConsistent(n, weights, id);
    EdgesEnumerate(m);
    assert LayerShaped(n, 0);
    assert InSize(m, 0) == |m.input|;
    assert m.input[|n.input|].id == id;
  }

  /** The id check keeps input ids distinct: an added input never shares its id with an earlier one. */
  lemma AddInputNodeDistinct(n: Network, weights: seq<real>, id: string)
    requires DistinctIds(n.input)
    requires AddInputNode(n, weights, id).Ok?
    ensures DistinctIds(AddInputNode(n, weights, id).value.input)
  {
    FindSpec(n.input, HasId(id));
  }

  lemma AddInputNodeConsistent(n: Network, weights: seq<real>, id: string)
    requires Consistent(n)
    requires AddInputNode(n, weights, id).Ok?
    ensures Consistent(AddInputNode(n, weights, id).value)
  {
    var m := AddInputNode(n, weights, id).value;
    assert NodesPlaced(m);
    forall i: nat | i < |m.layers|
      ensures LayerShaped(m, i)
    {
      assert LayerShaped(n, i);
      if i == 0 {
        assert InSize(m, 0) == InSize(n, 0) + 1;
      } else {
        assert InSize(m, i) == InSize(n, i);
      }
    }
  }

  /** Layer `l` with one more unit: a weight row `row` and a bias row holding `bias`. */
  function WithUnit(l: Layer, row: seq<real>, bias: real): Layer {
    Layer(l.weight + [row], l.bias + [[bias]])
  }

  /** The first check of `addNode`: outgoing weights given for the last layer. */
  predicate OutputForLast(n: Network, layerId: int, outputWeight: Option<seq<real>>) {
    outputWeight.Some? && |outputWeight.value| > 0 && layerId == |n.layers| - 1
  }

  /** The conditions under which `addNode` completes without throwing. */
  predicate AddNodeAccepts(n: Network, layerId: int, inputWeight: seq<real>, outputWeight: Option<seq<real>>) {
    && 0 <= layerId < |n.layers|
    && |inputWeight| == Cols(n.layers[layerId].weight)
    && outputWeight.Some?
    && (|outputWeight.value| == 0 ||
        (layerId < |n.layers| - 1 && |outputWeight.value| == Rows(n.layers[layerId + 1].weight)))
  }

  /**
    The `addNode` mutation. It first refuses an outgoing weight for the
    last layer, a layer id out of range and incoming weights that do not
    match the layer's width; then it appends the unit's row and bias; then
    it reads the length of the outgoing weights (a property access on
    `undefined` when none were given) and, when there are any, refuses a
    count that does not match the next layer or appends them there as a
    column. A refusal after the append leaves the appended unit in place.
   */
  function AddNode(n: Network, layerId: int, inputWeight: seq<real>, bias: real, outputWeight: Option<seq<real>>): (r: Commit)
    ensures r.Done? <==> AddNodeAccepts(n, layerId, inputWeight, outputWeight)
    ensures OutputForLast(n, layerId, outputWeight) ==> r == Threw(OutputLayerWeight, n)
    ensures !OutputForLast(n, layerId, outputWeight) && !(0 <= layerId < |n.layers|) ==> r == Threw(LayerOutOfRange, n)
    ensures (!OutputForLast(n, layerId, outputWeight) && 0 <= layerId < |n.layers| &&
             |inputWeight| != Cols(n.layers[layerId].weight)) ==> r == Threw(InputWeightLength, n)
    ensures (!OutputForLast(n, layerId, outputWeight) && 0 <= layerId < |n.layers| &&
             |inputWeight| == Cols(n.layers[layerId].weight)) ==>
              var grown := n.(layers := n.layers[layerId := WithUnit(n.layers[layerId], inputWeight, bias)]);
              && (outputWeight.None? ==> r == Threw(TypeError, grown))
              && (outputWeight.Some? && 0 < |outputWeight.value| != Rows(n.layers[layerId + 1].weight) ==>
                    r == Threw(OutputWeightLength, grown))
    ensures r.Done? ==>
              && r.net.input == n.input && r.net.output == n.output
              && |r.net.layers| == |n.layers|
              && r.net.layers[layerId] == WithUnit(n.layers[layerId], inputWeight, bias)
              && (forall li :: 0 <= li < |n.layers| && li != layerId && li != layerId + 1 ==> r.net.layers[li] == n.layers[li])
              && (layerId + 1 < |n.layers| ==>
                    && r.net.layers[layerId + 1].bias == n.layers[layerId + 1].bias
                    && |r.net.layers[layerId + 1].weight| == |n.layers[layerId + 1].weight|
                    && forall i :: 0 <= i < |n.layers[layerId + 1].weight| ==>
                         r.net.layers[layerId + 1].weight[i] ==
                           n.layers[layerId + 1].weight[i] + (if |outputWeight.value| > 0 then [outputWeight.value[i]] else []))
  {
    if OutputForLast(n, layerId, outputWeight) then Threw(OutputLayerWeight, n)
    else if layerId < 0 || layerId >= |n.layers| then Threw(LayerOutOfRange, n)
    else
      var l := n.layers[layerId];
      if |inputWeight| != Cols(l.weight) then Threw(InputWeightLength, n)
      else
        var grown := n.(layers := n.layers[layerId := WithUnit(l, inputWeight, bias)]);
        if outputWeight.None? then Threw(TypeError, grown)
        else if |outputWeight.value| == 0 then Done(grown)
        else
          var next := n.layers[layerId + 1];
          if Rows(next.weight) != |outputWeight.value| then Threw(OutputWeightLength, grown)
          else Done(grown.(layers := grown.layers[layerId + 1 := next.(weight := AppendColumn(next.weight, outputWeight.value))]))
  }

  /**
    A completed `addNode` keeps a consistent network consistent when the
    unit goes into the last layer or comes with outgoing weights, and the
    layer then has one more unit.
   */
  lemma AddNodeConsistent(n: Network, layerId: int, inputWeight: seq<real>, bias: real, outputWeight: Option<seq<real>>)
    requires Consistent(n)
    requires AddNode(n, layerId, inputWeight, bias, outputWeight).Done?
    requires layerId == |n.layers| - 1 || |outputWeight.value| > 0
    ensures var m := AddNode(n, layerId, inputWeight, bias, outputWeight).net;
            && Consistent(m)
            && Units(m, layerId) == Units(n, layerId) + 1
            && (forall li: nat :: li < |n.layers| && li != layerId ==> Units(m, li) == Units(n, li))
  {
    var m := AddNode(n, layerId, inputWeight, bias, outputWeight).net;
    var l := n.layers[layerId];
    assert NodesPlaced(m);
    forall i: nat | i < |m.layers|
      ensures LayerShaped(m, i)
    {
      assert LayerShaped(n, i);
      if i == layerId {
        assert InSize(m, i) == InSize(n, i);
        assert |l.weight[0]| == InSize(n, i);
        assert Rectangular(m.layers[i].weight, InSize(m, i));
      } else if i == layerId + 1 {
        assert InSize(m, i) == InSize(n, i) + 1;
      } else {
        assert InSize(m, i) == InSize(n, i);
      }
    }
  }

  /**
    The new unit is fed by the previous layer through its incoming
    weights, and when it comes with outgoing weights it feeds unit `ri` of
    the next layer through `outputWeight[ri]`.
   */
  lemma AddNodeEdges(n: Network, layerId: int, inputWeight: seq<real>, bias: real, outputWeight: Option<seq<real>>)
    requires Consistent(n)
    requires AddNode(n, layerId, inputWeight, bias, outputWeight).Done?
    requires layerId == |n.layers| - 1 || |outputWeight.value| > 0
    ensures var m := AddNode(n, layerId, inputWeight, bias, outputWeight).net;
            var u := Units(n, layerId);
            && Edges(m).Ok?
            && (forall p: nat :: p < |inputWeight| ==>
                  EdgeIndex(m, layerId, u, p) < |Edges(m).value| &&
                  Edges(m).value[EdgeIndex(m, layerId, u, p)].target == InnerId(layerId, u) &&
                  Edges(m).value[EdgeIndex(m, layerId, u, p)].name == Weight(inputWeight[p]))
            && (forall ri: nat :: layerId + 1 < |n.layers| && ri < |outputWeight.value| ==>
                  EdgeIndex(m, layerId + 1, ri, u) < |Edges(m).value| &&
                  Edges(m).value[EdgeIndex(m, layerId + 1, ri, u)].source == InnerId(layerId, u) &&
                  Edges(m).value[EdgeIndex(m, layerId + 1, ri, u)].name == Weight(outputWeight.value[ri]))
  {
    var m := AddNode(n, layerId, inputWeight, bias, outputWeight).net;
    var u := Units(n, layerId);
    AddNodeConsistent(n, layerId, inputWeight, bias, outputWeight);
    EdgesEnumerate(m);
    assert LayerShaped(n, layerId);
    assert |n.layers[layerId].weight[0]| == InSize(n, layerId);
    assert InSize(m, layerId) == InSize(n, layerId);
    assert m.layers[layerId].weight[u] == inputWeight;
    if layerId + 1 < |n.layers| {
      assert InSize(m, layerId + 1) == u + 1;
      assert LayerShaped(n, layerId + 1);
      forall ri: nat | ri < Units(n, layerId + 1)
        ensures m.layers[layerId + 1].weight[ri][u] == outputWeight.value[ri]
      {
        assert |n.layers[layerId + 1].weight[ri]| == u;
      }
    }
  }

  /** `addNode` never touches the input nodes, whether it completes or throws, so their ids stay distinct. */
  lemma AddNodeDistinct(n: Network, layerId: int, inputWeight: seq<real>, bias: real, outputWeight: Option<seq<real>>)
    requires DistinctIds(n.input)
    ensures AddNode(n, layerId, inputWeight, bias, outputWeight).net.input == n.input
    ensures DistinctIds(AddNode(n, layerId, inputWeight, bias, outputWeight).net.input)
  {
  }
}

=== FILE: nodes.dfy ===
/**
  The `nodes` and `getNode` getters: the node list derived from the state
  (inputs, then outputs, then the hidden units layer by layer) and lookup
  by id.
 */
module NodeList {
  import opened Base
  import opened State
  import opened Lodash
  import opened Decimal

  /** The id of hidden unit `ri` of layer `li`: `'innerL' + li + 'R' + ri`. */
  function InnerId(li: nat, ri: nat): string {
    "innerL" + NatStr(li) + "R" + NatStr(ri)
  }

  /** Two hidden units share an id only if they are the same unit. */
  lemma InnerIdInjective(a: nat, b: nat, c: nat, d: nat)
    requires InnerId(a, b) == InnerId(c, d)
    ensures a == c && b == d
  {
    var s := InnerId(a, b);
    assert s[6..] == NatStr(a) + ['R'] + NatStr(b);
    assert s[6..] == NatStr(c) + ['R'] + NatStr(d);
    SplitAtMarker(NatStr(a), NatStr(b), NatStr(c), NatStr(d), 'R');
    NatStrInjective(a, c);
    NatStrInjective(b, d);
  }

  /** The bias a hidden unit shows: the first entry of its bias row, `undefined` if the row is empty. */
  function BiasEntry(row: seq<real>): Option<real> {
    if |row| > 0 then Some(row[0]) else None
  }

  /** The node for hidden unit `ri` of layer `li`. */
  function HiddenNode(l: Layer, li: nat, ri: nat): Node
    requires ri < |l.bias|
  {
    Node(InnerId(li, ri), ri, li, Inner(BiasEntry(l.bias[ri])), None)
  }

  /** One node per bias row of the layer, in row order. */
  function LayerNodes(l: Layer, li: nat): seq<Node> {
    seq(|l.bias|, ri requires 0 <= ri < |l.bias| => HiddenNode(l, li, ri))
  }

  /** The hidden units of layers `li`, `li + 1`, ..., flattened in layer order. */
  function HiddenFrom(layers: seq<Layer>, li: nat): seq<Node>
    decreases |layers| - li
  {
    if li >= |layers| then [] else LayerNodes(layers[li], li) + HiddenFrom(layers, li + 1)
  }

  /**
    The `nodes` getter: inputs, then outputs, then hidden units. Each input
    and output node appears as stored, the inputs first.
   */
  function Nodes(n: Network): (r: seq<Node>)
    ensures |r| >= |n.input| + |n.output|
    ensures forall k :: 0 <= k < |n.input| ==> r[k] == n.input[k]
    ensures forall k :: 0 <= k < |n.output| ==> r[|n.input| + k] == n.output[k]
  {
    n.input + n.output + HiddenFrom(n.layers, 0)
  }

  /** The number of hidden units in layers `a` up to, not including, `b`. */
  function UnitsBetween(layers: seq<Layer>, a: nat, b: nat): nat
    requires b <= |layers|
    decreases b - a
  {
    if a >= b then 0 else |layers[a].bias| + UnitsBetween(layers, a + 1, b)
  }

  lemma {:induction false} HiddenFromLength(layers: seq<Layer>, m: nat)
    requires m <= |layers|
    ensures |HiddenFrom(layers, m)| == UnitsBetween(layers, m, |layers|)
    decreases |layers| - m
  {
    if m < |layers| {
      HiddenFromLength(layers, m + 1);
    }
  }

  /**
    Where a hidden unit sits in the flattened list of layers from `m` on:
    unit `ri` of layer `li` comes after every unit of layers `m` to `li - 1`.
   */
  lemma {:induction false} HiddenFromAt(layers: seq<Layer>, m: nat, li: nat, ri: nat)
    requires m <= li < |layers| && ri < |layers[li].bias|
    ensures UnitsBetween(layers, m, li) + ri < |HiddenFrom(layers, m)|
    ensures HiddenFrom(layers, m)[UnitsBetween(layers, m, li) + ri] == HiddenNode(layers[li], li, ri)
    decreases li - m
  {
    var head := LayerNodes(layers[m], m);
    var tail := HiddenFrom(layers, m + 1);
    assert HiddenFrom(layers, m) == head + tail;
    if li > m {
      HiddenFromAt(layers, m + 1, li, ri);
      var k := UnitsBetween(layers, m + 1, li) + ri;
      assert (head + tail)[|head| + k] == tail[k];
    }
  }

  /** The position of unit `ri` of layer `li` among all hidden units. */
  function HiddenIndex(layers: seq<Layer>, li: nat, ri: nat): nat
    requires li <= |layers|
  {
    UnitsBetween(layers, 0, li) + ri
  }

  /**
    The order and count of the `nodes` getter: every input, then every
    output, then unit `ri` of layer `li` at position
    |inputs| + |outputs| + (units of the layers before `li`) + `ri`.
   */
  lemma NodesLayout(n: Network)
    ensures |Nodes(n)| == |n.input| + |n.output| + UnitsBetween(n.layers, 0, |n.layers|)
    ensures forall k :: 0 <= k < |n.input| ==> Nodes(n)[k] == n.input[k]
    ensures forall k :: 0 <= k < |n.output| ==> Nodes(n)[|n.input| + k] == n.output[k]
    ensures forall li: nat, ri: nat :: li < |n.layers| && ri < |n.layers[li].bias| ==>
              HiddenIndex(n.layers, li, ri) < UnitsBetween(n.layers, 0, |n.layers|) &&
              Nodes(n)[|n.input| + |n.output| + HiddenIndex(n.layers, li, ri)]
                == HiddenNode(n.layers[li], li, ri)
  {
    HiddenFromLength(n.layers, 0);
    var front := n.input + n.output;
    var hidden := HiddenFrom(n.layers, 0);
    forall li: nat, ri: nat | li < |n.layers| && ri < |n.layers[li].bias|
      ensures HiddenIndex(n.layers, li, ri) < UnitsBetween(n.layers, 0, |n.layers|)
      ensures Nodes(n)[|n.input| + |n.output| + HiddenIndex(n.layers, li, ri)]
                == HiddenNode(n.layers[li], li, ri)
    {
      var k := HiddenIndex(n.layers, li, ri);
      HiddenFromAt(n.layers, 0, li, ri);
      assert (front + hidden)[|front| + k] == hidden[k];
    }
  }

  /**
    Looking through the hidden units from layer `m` on with a matcher that
    matches unit `ri` of layer `li` and no other finds that unit.
   */
  lemma {:induction false} FindHidden(layers: seq<Layer>, m: nat, li: nat, ri: nat, q: Matcher)
    requires m <= li < |layers| && ri < |layers[li].bias|
    requires forall lj: nat, rj: nat :: lj < |layers| && rj < |layers[lj].bias| ==>
               (Matches(HiddenNode(layers[lj], lj, rj), q) <==> lj == li && rj == ri)
    ensures Find(HiddenFrom(layers, m), q) == Some(HiddenNode(layers[li], li, ri))
    decreases li - m
  {
    var head := LayerNodes(layers[m], m);
    FindConcat(head, HiddenFrom(layers, m + 1), q);
    FindIndexSpec(head, q);
    if m < li {
      assert forall k :: 0 <= k < |head| ==> !Matches(head[k], q);
      FindHidden(layers, m + 1, li, ri, q);
    } else {
      assert Matches(head[ri], q);
    }
  }

  /** Unit `ri` of layer `li` is the only node at that layer and row, once inputs and outputs sit in their own layers. */
  lemma FindAtHidden(n: Network, li: nat, ri: nat)
    requires NodesPlaced(n)
    requires li < |n.layers| && ri < Units(n, li)
    ensures Find(Nodes(n), At(li, ri)) == Some(HiddenNode(n.layers[li], li, ri))
  {
    FindConcat(n.input + n.output, HiddenFrom(n.layers, 0), At(li, ri));
    FindSpec(n.input + n.output, At(li, ri));
    FindHidden(n.layers, 0, li, ri, At(li, ri));
  }

  /** Filtering the hidden units from layer `m` on by layer keeps exactly that layer's units. */
  lemma {:induction false} FilterHidden(layers: seq<Layer>, m: nat, x: int)
    ensures Filter(HiddenFrom(layers, m), InLayer(x)) ==
              if m <= x < |layers| then LayerNodes(layers[x], x) else []
    decreases |layers| - m
  {
    if m < |layers| {
      var head := LayerNodes(layers[m], m);
      FilterConcat(head, HiddenFrom(layers, m + 1), InLayer(x));
      FilterUniform(head, InLayer(x));
      FilterHidden(layers, m + 1, x);
    }
  }

  /**
    The nodes of one layer, as `_.filter(nodes, {layer: x})` collects them:
    the inputs for -1, the units of a hidden layer, the outputs for the
    layer after the last, nothing otherwise.
   */
  lemma FilterLayer(n: Network, x: int)
    requires NodesPlaced(n)
    ensures Filter(Nodes(n), InLayer(x)) ==
              if x == -1 then n.input
              else if 0 <= x < |n.layers| then LayerNodes(n.layers[x], x)
              else if x == |n.layers| then n.output
              else []
  {
    FilterConcat(n.input + n.output, HiddenFrom(n.layers, 0), InLayer(x));
    FilterConcat(n.input, n.output, InLayer(x));
    FilterPlaced(n.input, -1, x);
    FilterPlaced(n.output, |n.layers|, x);
    FilterHidden(n.layers, 0, x);
  }

  /** Filtering a list whose nodes all sit in layer `y` by layer `x` keeps all of it or none. */
  lemma FilterPlaced(s: seq<Node>, y: int, x: int)
    requires forall k :: 0 <= k < |s| ==> s[k].layer == y
    ensures Filter(s, InLayer(x)) == if x == y then s else []
  {
    FilterUniform(s, InLayer(x));
  }

  /** The `getNode` getter: the first node with the given id. */
  function GetNode(n: Network, id: string): (r: Option<Node>)
    ensures r.None? <==> forall k :: 0 <= k < |Nodes(n)| ==> Nodes(n)[k].id != id
    ensures r.Some? ==> r.value in Nodes(n) && r.value.id == id
    ensures r.Some? ==>
              exists k :: 0 <= k < |Nodes(n)| && Nodes(n)[k] == r.value &&
                forall j :: 0 <= j < k ==> Nodes(n)[j].id != id
  {
    FindIndexSpec(Nodes(n), HasId(id));
    FindSpec(Nodes(n), HasId(id));
    Find(Nodes(n), HasId(id))
  }

  /** Looking up a hidden unit's id finds that unit, unless an input or output node took the id first. */
  lemma GetNodeHidden(n: Network, li: nat, ri: nat)
    requires li < |n.layers| && ri < Units(n, li)
    requires forall k :: 0 <= k < |n.input| ==> n.input[k].id != InnerId(li, ri)
    requires forall k :: 0 <= k < |n.output| ==> n.output[k].id != InnerId(li, ri)
    ensures GetNode(n, InnerId(li, ri)) == Some(HiddenNode(n.layers[li], li, ri))
  {
    var q := HasId(InnerId(li, ri));
    FindConcat(n.input + n.output, HiddenFrom(n.layers, 0), q);
    FindSpec(n.input + n.output, q);
    forall lj: nat, rj: nat | lj < |n.layers| && rj < |n.layers[lj].bias|
      ensures Matches(HiddenNode(n.layers[lj], lj, rj), q) <==> lj == li && rj == ri
    {
      if InnerId(lj, rj) == InnerId(li, ri) {
        InnerIdInjective(lj, rj, li, ri);
      }
    }
    FindHidden(n.layers, 0, li, ri, q);
  }
}

=== FILE: queries.dfy ===
/**
  The `layerSize`, `layersIds` and `innerLayersId` getters: layer ids run
  from -1 (the inputs) through the hidden layers 0 .. |layers| - 1 to
  |layers| (the outputs).
 */
module Queries {
  import opened Base
  import opened State
  import opened Lodash
  import opened NodeList

  /** The `layerSize` getter: how many nodes layer `id` has; ids outside -1 .. |layers| throw. */
  function LayerSize(n: Network, id: int): (r: Result<nat>)
    ensures r.Err? <==> id < -1 || id > |n.layers|
    ensures r.Err? ==> r.error == IdOutOfBounds
    ensures id == -1 ==> r == Ok(|n.input|)
    ensures id == |n.layers| ==> r == Ok(|n.output|)
  {
    if id < -1 || id > |n.layers| then Err(IdOutOfBounds)
    else if id == -1 then Ok(|n.input|)
    else if id == |n.layers| then Ok(|n.output|)
    else Ok(|n.layers[id].bias|)
  }

  /**
    `layerSize` agrees with the `nodes` getter: once inputs and outputs sit
    in their own layers, every valid id's size is the number of nodes that
    `_.filter(nodes, {layer: id})` finds.
   */
  lemma LayerSizeCountsNodes(n: Network, id: int)
    requires NodesPlaced(n)
    requires -1 <= id <= |n.layers|
    ensures LayerSize(n, id) == Ok(|Filter(Nodes(n), InLayer(id))|)
  {
    FilterLayer(n, id);
  }

  /** The `layersIds` getter: `_.range(-1, |layers|)`. */
  function LayersIds(n: Network): (r: seq<int>)
    ensures |r| == |n.layers| + 1
    ensures forall k :: 0 <= k < |r| ==> r[k] == k - 1
  {
    Range(-1, |n.layers|)
  }

  /**
    `layersIds` lists the input layer and every hidden layer in increasing
    order, and leaves out the output layer; `layerSize` is defined on each.
   */
  lemma LayersIdsExact(n: Network)
    ensures forall x :: x in LayersIds(n) <==> -1 <= x < |n.layers|
    ensures forall k :: 0 <= k < |LayersIds(n)| ==> LayerSize(n, LayersIds(n)[k]).Ok?
  {
    var r := LayersIds(n);
    forall x | -1 <= x < |n.layers|
      ensures x in r
    {
      assert r[x + 1] == x;
    }
  }

  /** The `innerLayersId` getter: `_.range(0, |layers| - 1)`. */
  function InnerLayersId(n: Network): (r: seq<int>)
    ensures |n.layers| >= 1 ==> |r| == |n.layers| - 1 && forall k :: 0 <= k < |r| ==> r[k] == k
    ensures |n.layers| == 0 ==> r == [0]
  {
    Range(0, |n.layers| - 1)
  }

  /**
    With at least one layer, the ids `innerLayersId` lists are exactly the
    layers other than the last.
   */
  lemma InnerLayersIdExact(n: Network)
    ensures |n.layers| >= 1 ==> forall x :: x in InnerLayersId(n) <==> 0 <= x < |n.layers| - 1
  {
    var r := InnerLayersId(n);
    if |n.layers| >= 1 {
      forall x | 0 <= x < |n.layers| - 1
        ensures x in r
      {
        assert r[x] == x;
      }
    }
  }
}

=== FILE: state.dfy ===
/**
  The store's state: an ordered list of input nodes, an ordered list of
  layers (a weight matrix and a bias column each) and an ordered list of
  output nodes.
 */
module State {
  import opened Base
  import opened Matrices

  /** What a node stands for; a hidden unit carries the entry of its bias row (`undefined` for an empty row). */
  datatype Kind = In | Out | Inner(bias: Option<real>)

  /**
    A node: a unique `id`, its position `row` within its layer, and its
    `layer` (-1 for inputs, the layer index for hidden units, the number of
    layers for outputs). `value` is unset until a run assigns it.
   */
  datatype Node = Node(id: string, row: int, layer: int, kind: Kind, value: Option<Num>)

  /** `weight` maps the previous layer's activations to this layer's; `bias` is a one-column matrix. */
  datatype Layer = Layer(weight: Matrix, bias: Matrix)

  datatype Network = Network(input: seq<Node>, layers: seq<Layer>, output: seq<Node>)

  /**
    The state after a mutation. A mutation that throws leaves behind whatever
    it had already changed, so a failure carries a state too.
   */
  datatype Commit = Done(net: Network) | Threw(error: Error, net: Network)

  function InputNode(id: string, row: int): Node {
    Node(id, row, -1, In, None)
  }

  function OutputNode(id: string, row: int, layer: int): Node {
    Node(id, row, layer, Out, None)
  }

  /** The state the store starts in: 2 inputs, layers of 2 and 3 units, 3 outputs. */
  const Initial: Network :=
    Network(
      [InputNode("in0", 0), InputNode("in1", 1)],
      [ Layer([[1.0, 2.0], [2.0, 1.0]], [[2.0], [0.5]]),
        Layer([[0.2, 1.0], [1.0, 1.0], [2.0, 3.0]], [[2.0], [1.0], [1.0]]) ],
      [OutputNode("out0", 0, 2), OutputNode("out1", 1, 2), OutputNode("out2", 2, 2)])

  /** The number of activations layer `i` consumes: the inputs for layer 0, else the previous layer's units. */
  function InSize(n: Network, i: nat): nat
    requires i < |n.layers|
  {
    if i == 0 then |n.input| else |n.layers[i - 1].weight|
  }

  /**
    Layer `i` has at least one unit, one bias row of one entry per weight
    row, and weight rows as wide as the layer before it.
   */
  predicate LayerShaped(n: Network, i: nat)
    requires i < |n.layers|
  {
    var l := n.layers[i];
    && |l.weight| >= 1
    && |l.bias| == |l.weight|
    && Rectangular(l.weight, InSize(n, i))
    && Rectangular(l.bias, 1)
  }

  /**
    The node lists describe their layers: input `k` has row `k` in layer -1,
    output `k` has row `k` in the layer after the last one.
   */
  predicate NodesPlaced(n: Network) {
    && |n.layers| >= 1
    && (forall k :: 0 <= k < |n.input| ==>
          n.input[k].row == k && n.input[k].layer == -1 && n.input[k].kind == In)
    && (forall k :: 0 <= k < |n.output| ==>
          n.output[k].row == k && n.output[k].layer == |n.layers| && n.output[k].kind == Out)
  }

  /**
    The topology invariant: every layer is shaped to fit its predecessor and
    the last layer has a unit for every output node.
   */
  predicate Consistent(n: Network) {
    && NodesPlaced(n)
    && (forall i: nat :: i < |n.layers| ==> LayerShaped(n, i))
    && |n.output| <= |n.layers[|n.layers| - 1].weight|
  }

  /** The number of hidden units of layer `i`: the rows of its bias. */
  function Units(n: Network, i: nat): nat
    requires i < |n.layers|
  {
    |n.layers[i].bias|
  }

  /** No two nodes of the list share an id. */
  predicate DistinctIds(s: seq<Node>) {
    forall j, k :: 0 <= j < k < |s| ==> s[j].id != s[k].id
  }

  /** The starting inputs have distinct ids. */
  lemma InitialDistinct()
    ensures DistinctIds(Initial.input)
  {
  }

  lemma InitialConsistent()
    ensures Consistent(Initial)
    ensures |Initial.layers| == 2 && Units(Initial, 0) == 2 && Units(Initial, 1) == 3
  {
  }
}

=== FILE: values.dfy ===
/**
  The value mutations: `inputs` writes a value to the input node with each
  given id, `outputs` writes entry `i` of an activation column to the
  output node in row `i`. Each touches the first node the lookup finds and
  skips keys no node answers to.
 */
module Values {
  import opened Base
  import opened Matrices
  import opened State
  import opened Lodash
  import opened Forward

  /** Node `k` of `input` once the keys in `done` have been written. */
  function InputAfter(input: seq<Node>, values: map<string, real>, done: set<string>, k: nat): Node
    requires k < |input|
  {
    var id := input[k].id;
    if id in done && id in values && FindIndex(input, HasId(id)) == Some(k)
    then input[k].(value := Some(Val(values[id])))
    else input[k]
  }

  /** The input list after `inputs` has written every key of `values`. */
  function InputsRef(input: seq<Node>, values: map<string, real>): seq<Node> {
    seq(|input|, k requires 0 <= k < |input| => InputAfter(input, values, values.Keys, k))
  }

  /** The `inputs` mutation, key by key in some order; writing different keys never touches the same node. */
  method Inputs(n: Network, values: map<string, real>) returns (r: Network)
    ensures r == n.(input := InputsRef(n.input, values))
  {
    var input := n.input;
    var todo := values.Keys;
    while todo != {}
      invariant todo <= values.Keys
      invariant |input| == |n.input|
      invariant forall k :: 0 <= k < |input| ==> input[k] == InputAfter(n.input, values, values.Keys - todo, k)
      decreases todo
    {
      var id :| id in todo;
      FindIndexAgree(input, n.input, HasId(id));
      FindIndexSpec(n.input, HasId(id));
      var found := FindIndex(input, HasId(id));
      if found.Some? {
        var k := found.value;
        input := input[k := input[k].(value := Some(Val(values[id])))];
      }
      todo := todo - {id};
    }
    r := n.(input := input);
  }

  /**
    `inputs` changes nothing but values; a node whose id is not a key keeps
    its value; the node the lookup finds for a key holds that key's value;
    and with distinct ids, every node whose id is a key holds its value.
   */
  lemma InputsRefSpec(input: seq<Node>, values: map<string, real>)
    ensures var r := InputsRef(input, values);
            && |r| == |input|
            && (forall k :: 0 <= k < |input| ==> r[k].(value := input[k].value) == input[k])
            && (forall k :: 0 <= k < |input| && input[k].id !in values ==> r[k] == input[k])
            && (forall id :: id in values && Find(input, HasId(id)).Some? ==>
                  Find(r, HasId(id)) == Some(Find(input, HasId(id)).value.(value := Some(Val(values[id])))))
            && (DistinctIds(input) ==>
                  forall k :: 0 <= k < |input| && input[k].id in values ==> r[k].value == Some(Val(values[input[k].id])))
  {
    var r := InputsRef(input, values);
    forall id | id in values && Find(input, HasId(id)).Some?
      ensures Find(r, HasId(id)) == Some(Find(input, HasId(id)).value.(value := Some(Val(values[id]))))
    {
      FindIndexAgree(r, input, HasId(id));
      FindIndexSpec(input, HasId(id));
    }
    if DistinctIds(input) {
      forall k | 0 <= k < |input| && input[k].id in values
        ensures r[k].value == Some(Val(values[input[k].id]))
      {
        FindIndexSpec(input, HasId(input[k].id));
      }
    }
  }

  /** `inputs` changes values only, so distinct input ids stay distinct. */
  lemma InputsDistinct(input: seq<Node>, values: map<string, real>)
    requires DistinctIds(input)
    ensures DistinctIds(InputsRef(input, values))
  {
  }

  /**
    Once `inputs` has written a value for every input of a list with
    distinct ids, the input column has no NaN.
   */
  lemma InputsFill(n: Network, values: map<string, real>)
    requires DistinctIds(n.input)
    requires forall k :: 0 <= k < |n.input| ==> n.input[k].id in values
    ensures Finite(InputVector(n.(input := InputsRef(n.input, values))))
  {
    InputsRefSpec(n.input, values);
  }

  /** Node `k` of `output` once the entries before `i` have been written. */
  function OutputAfter(output: seq<Node>, v: Column, i: nat, k: nat): Node
    requires k < |output|
  {
    var row := output[k].row;
    if 0 <= row < i && row < |v| && FindIndex(output, HasRow(row)) == Some(k)
    then output[k].(value := Some(v[row]))
    else output[k]
  }

  /** The output list after `outputs` has written every entry of `v`. */
  function OutputsRef(output: seq<Node>, v: Column): seq<Node> {
    seq(|output|, k requires 0 <= k < |output| => OutputAfter(output, v, |v|, k))
  }

  /** The `outputs` mutation, entry by entry in order. */
  method Outputs(n: Network, v: Column) returns (r: Network)
    ensures r == n.(output := OutputsRef(n.output, v))
  {
    var output := n.output;
    var i := 0;
    while i < |v|
      invariant 0 <= i <= |v|
      invariant |output| == |n.output|
      invariant forall k :: 0 <= k < |output| ==> output[k] == OutputAfter(n.output, v, i, k)
    {
      FindIndexAgree(output, n.output, HasRow(i));
      FindIndexSpec(n.output, HasRow(i));
      var found := FindIndex(output, HasRow(i));
      if found.Some? {
        var k := found.value;
        output := output[k := output[k].(value := Some(v[i]))];
      }
      i := i + 1;
    }
    r := n.(output := output);
  }

  /**
    With outputs in row order, `outputs` gives output `k` entry `k` of the
    column when the column has one, leaves it alone otherwise, and changes
    nothing but values.
   */
  lemma OutputsPlaced(n: Network, v: Column)
    requires NodesPlaced(n)
    ensures var r := OutputsRef(n.output, v);
            && |r| == |n.output|
            && (forall k :: 0 <= k < |n.output| ==> r[k].(value := n.output[k].value) == n.output[k])
            && (forall k :: 0 <= k < |n.output| ==>
                  r[k].value == if k < |v| then Some(v[k]) else n.output[k].value)
  {
    var r := OutputsRef(n.output, v);
    forall k | 0 <= k < |n.output| && k < |v|
      ensures r[k].value == Some(v[k])
    {
      FindIndexSpec(n.output, HasRow(k));
      assert Matches(n.output[k], HasRow(k));
    }
  }
}
